=== FILE: README.md ===
# ActiveRecord for CoreData — a Dafny model of the wrapper's own decisions

ActiveRecord is a Swift convenience layer over Apple's CoreData. Almost everything it does is
delegated to CoreData. This project models the small amount of logic the wrapper adds itself,
with CoreData reduced to oracles. An `Engine` value answers the CoreData questions: does a context
have changes, does its `save` succeed, what does a fetch or a count return, which object does an
insert create. Other oracles are plain parameters: store reachability and model compatibility,
the two `addPersistentStoreWithType` outcomes, `obtainPermanentIDsForObjects`, and the bundle name.

What is modelled:

- **Store names** (`StoreNames`, store_name.dfy). This is the `defaultStoreName` derivation that the
  library driver, `Manager`, `ARContext` and the example stack each repeat. It picks the explicit name,
  then the bundle name, then `DefaultStore.sqlite`, and appends `.sqlite` unless the name already ends
  in `sqlite`. The same file holds the lazy cell that `setup(storeName:)` can influence only before
  the first read.
- **Entity names** (`EntityNames`, entity_name.dfy). `entityName()` returns the component after the
  last `.` of the class name. It is modelled as a split on `.` followed by taking the last component.
- **The CoreData driver** (`Driver`, driver.dfy, and `OperationQueues`, operation_queue.dfy):
  - fetch-parameter normalisation, `read`, `count` and `create`;
  - `save`, with its error-pointer rule and the parent cascade (`recursiveSave`);
  - both deletes;
  - the `save` closure of `saveWithBlockWaitSave` and its callback routing;
  - submission to the serial `DriverOperationQueue`, with its dependency on the last operation;
  - `currentExecutingOperation`;
  - the static queue slot and `tearDown`;
  - `managedObjectContext()` routing by caller kind, with a per-thread context cache.
- **Context stacks** (`ContextStacks`, context_stack.dfy, and `Coordinators`, coordinator.dfy):
  - the lazy default → writer → coordinator wiring of `ARContext` and of the example's `AppCoreDataStack`;
  - add-the-store with one delete-and-retry, in both its variants;
  - `instantiateStack`.
- **Migration checks** (`Migration`, migration.dfy). These are `Migrator.required` and
  `CoreDataStack.isRequiredMigration`, each with its monotone confirmation flag.
- **The library's singleton driver and free functions** (`ActiveRecord`, active_record.dfy). This covers
  lazy coordinator and context creation, CRUD where an explicit context overrides the default one,
  and `findFirst`.
- **The example entity** (`Events`, event.dfy). `create`, `find`, `findFirst`, `save` and `delete`
  delegate to the free functions, using the entity named by `entityName()`.

Swift `lazy var`s become `Lazy<T>` cells (`Unset | Cached(value)`). Each accessor is a function
that returns its answer together with the new state. Contexts are values whose parent is held by
value, so every parent chain is finite.

Some behaviours of the code, as written, are worth knowing. The model reproduces each one and a
lemma states it:

- `save(context:error:)` judges success by reading the caller's error pointer. A pointer that already
  holds an error makes it report failure even though the save happened and the cascade started
  (`Driver.PresetErrorReportsFailure`).
- In `ARContext`, suppose the writer context is read before a coordinator is set. It is then cached
  as nil. A default context built after the coordinator arrives has no parent at all
  (`ContextStacks.LateCoordinatorOrphansDefault`).
- The library's private delete-by-entity reads through the chosen context but deletes every object
  through the default context (`ActiveRecord.DeleteEntitiesUsesDefaultContext`).
- `saveWithBlock` wraps even a nil block, so only the default context decides whether work is queued
  (`Driver.SaveWithBlock`).
- With `waitUntilFinished`, operations go through the inherited `addOperations(_:waitUntilFinished:)`.
  Only `addOperation` is overridden to add the dependency on the last operation. The model assumes
  that Foundation's `addOperations` does not call the overridden `addOperation`, so such an operation
  gets no dependency (`Driver.Submit`).

## Model

| member | source | states |
|---|---|---|
| `StoreNames.WithSqliteSuffix` | Source/ActiveRecord.swift:50-53 | the result ends in `sqlite`; it equals the input exactly when the input already ends in `sqlite` (with or without a dot); otherwise it is the input followed by `.sqlite` |
| `StoreNames.WithSqliteSuffixIdempotent` | Source/Manager.swift:47-50 | applying the suffix rule twice gives the same name as applying it once |
| `StoreNames.WithSqliteSuffixKeepsName` | Source/Context.swift:112-114 | the rule only appends: the original name is a prefix of the result, followed by `.sqlite` when something was added |
| `StoreNames.SelectBaseName` | Source/ActiveRecord.swift:41-49 | a present, non-empty store name wins; a nil or empty one falls back to the bundle name, and then to `DefaultStore.sqlite` |
| `StoreNames.DefaultStoreName` | Source/Manager.swift:37-51 | the derived name ends in `sqlite` and is the suffix rule applied to the explicit name, the bundle name or `DefaultStore.sqlite`, in that priority |
| `StoreNames.DefaultStoreNameIsNormal` | Source/ActiveRecord.swift:40-54 | the derived name is a fixed point of the suffix rule |
| `StoreNames.BundleStoreName` | Source/Context.swift:107-116 | without an explicit name, the store name is the bundle name (with `.sqlite` added unless it ends in `sqlite`), or `DefaultStore.sqlite` when there is no bundle name |
| `StoreNames.BundleStoreNameIsUnsetDefault` | Examples/Example-Swift/Example-Swift/AppCoreDataStack.swift:117-126 | the bundle-only derivation equals the general one with the store name nil or empty |
| `StoreNames.ReadStoreName` | Source/ActiveRecord.swift:40-54 | the first read derives the name from the current setting and caches it; every later read returns the cached value and leaves the state unchanged |
| `StoreNames.Setup` | Source/Manager.swift:53-55 | `setup(name)` records the name and leaves an already cached store name as it is |
| `StoreNames.SetupBeforeFirstReadDecides` | Source/Manager.swift:53-55 | a `setup(name)` before the first read makes that read return the name derived from it (the name with the suffix rule applied, when non-empty) |
| `StoreNames.SetupAfterReadIgnored` | Source/Manager.swift:37-55 | a `setup` after a read changes nothing a later read returns, whatever the bundle name then is |
| `StoreNames.NameFixedAfterFirstRead` | Source/ActiveRecord.swift:40-58 | once the name is cached, any sequence of `setup` calls and reads leaves the cache unchanged |
| `EntityNames.Split` | Example/Event.swift:23 | splitting on `.` yields at least one component and no component contains `.` |
| `EntityNames.JoinSplit` | Example/Event.swift:23-24 | joining the components back with `.` restores the class name, so the split loses nothing |
| `EntityNames.LastComponentIsSuffix` | Examples/Example-Swift/Example-Swift/Event.swift:17-20 | the last component is a suffix of the class name; with one component it is the whole name, with more it is preceded by a `.`; a name without `.` splits into one component |
| `EntityNames.EntityName` | Example/Event.swift:21-27 | `entityName()` contains no `.`, is a suffix of the class name, is preceded by a `.` when shorter, and is the whole name when the name has no `.` |
| `EntityNames.EntityNameIsTextAfterLastDot` | Examples/Example-Swift/Example-Swift/Event.swift:16-22 | `entityName()` equals the text after the last `.` under an independent definition of "last `.`" |
| `EntityNames.EntityNameOfQualified` | Examples/Example-Swift/Example-Swift/Event.swift:18-19 | for `Module.Event`-shaped names, whatever the module path, the result is the part after the final `.` |
| `OperationQueues.NewQueue` | Source/CoreData/Driver.swift:474-477 | a new driver queue is empty and runs one operation at a time |
| `OperationQueues.NewOperation` | Source/CoreData/Driver.swift:517-530 | an operation's context is a fresh private-queue context whose parent is the given context, with the overwrite merge policy |
| `OperationQueues.AddOperation` | Source/CoreData/Driver.swift:484-490 | the operation is appended and the earlier operations are unchanged; it gains a dependency on the previously last operation, or none when the queue was empty |
| `OperationQueues.AddOperationsWaiting` | Source/CoreData/Driver.swift:349-350 | the inherited waiting submission appends the operation without adding any dependency |
| `OperationQueues.AddOperationKeepsChain` | Source/CoreData/Driver.swift:480-490 | if every operation depends on its predecessor, that still holds after `addOperation` |
| `OperationQueues.FirstExecuting` | Source/CoreData/Driver.swift:493-498 | returns the index of an executing operation with none executing before it, or nil when none is executing |
| `OperationQueues.CurrentExecutingOperation` | Source/CoreData/Driver.swift:491-499 | nil iff no operation is executing; otherwise an executing operation of the queue with no executing operation ahead of it |
| `OperationQueues.AddingIdleOperationKeepsCurrent` | Source/CoreData/Driver.swift:484-499 | submitting an operation that is not executing leaves `currentExecutingOperation` unchanged |
| `OperationQueues.AccessQueue` | Source/CoreData/Driver.swift:32-38 | the accessor returns the stored queue when there is one, and otherwise creates and stores a new empty queue |
| `OperationQueues.AccessQueueIsShared` | Source/CoreData/Driver.swift:28-38 | a second access returns the same queue and state as the first |
| `OperationQueues.TearDown` | Source/CoreData/Driver.swift:46-49 | `tearDown` clears the stored queue and hands the driver's own context to the caller's tear-down callback |
| `OperationQueues.TearDownGivesFreshQueue` | Source/CoreData/Driver.swift:32-49 | after `tearDown` the next access yields a new, empty queue |
| `Driver.Create` | Source/CoreData/Driver.swift:61-67 | an object is created iff a context is given, and it belongs to that context |
| `Driver.ApplyFetchParameters` | Source/CoreData/Driver.swift:82-99 | entity, predicate and sort descriptors are carried over; offset and limit are copied only when strictly positive, and otherwise keep the request defaults |
| `Driver.NonPositiveParametersIgnored` | Source/CoreData/Driver.swift:90-99 | nil, zero and negative offsets and limits build the same request as passing none |
| `Driver.OffsetAndLimitSetIffPositive` | Source/CoreData/Driver.swift:90-98 | the request carries an offset (a limit) exactly when a positive one was given |
| `Driver.Read` | Source/CoreData/Driver.swift:79-104 | nil without a context; otherwise what CoreData returns for the normalised request on that context |
| `Driver.ReadRequest` | Source/CoreData/Driver.swift:115-123 | an explicit context is used if given, else the caller's routed context; nil when neither exists |
| `Driver.Count` | Source/CoreData/Driver.swift:134-144 | 0 without a context; otherwise CoreData's count for the entity and predicate on that context |
| `Driver.CountAgreesWithRead` | Source/CoreData/Driver.swift:79-144 | `count` counts with the request `read` builds when no sort, offset or limit is given; without a context `count` is 0 and `read` is nil |
| `Driver.RecursiveSave` | Source/CoreData/Driver.swift:158-173 | saves ancestors strictly in child-to-root order, one attempt per ancestor, and stops right after the first failure or at the root; with no parent it saves nothing |
| `Driver.CascadeNeverSavesStart` | Source/CoreData/Driver.swift:159-169 | every context the cascade saves is an ancestor, never the starting context |
| `Driver.CascadeReachesRootWhenAllSucceed` | Source/CoreData/Driver.swift:161-169 | when every ancestor's save succeeds, all ancestors are saved up to the root |
| `Driver.Save` | Source/CoreData/Driver.swift:183-211 | false without a context; true without changes, with no local save and no cascade; otherwise the context is saved once, a failure leaves a save error, and the cascade starts only after a successful local save |
| `Driver.SaveWithoutPointerIsFreshPointer` | Source/CoreData/Driver.swift:184-187 | passing no error pointer gives exactly the result of passing a fresh one |
| `Driver.SaveSucceedsIffLocalSaveSucceeds` | Source/CoreData/Driver.swift:189-210 | with a fresh pointer, save reports success iff there is a context and it has no changes or its save succeeds |
| `Driver.PresetErrorReportsFailure` | Source/CoreData/Driver.swift:191-199 | a pointer that already holds an error makes save report failure although the context was saved and the cascade started |
| `Driver.DeleteObject` | Source/CoreData/Driver.swift:218-224 | an object is deleted from its own context; a nil object or one without a context is left untouched |
| `Driver.DeletionsOf` | Source/CoreData/Driver.swift:237-240 | the loop deleting each object read makes at most one deletion per object; which ones and in what order is stated by the three lemmas below |
| `Driver.DeletionsOfExactly` | Source/CoreData/Driver.swift:237-240 | a deletion is made iff some object with a context is deleted by that context |
| `Driver.DeletionsOfInOrder` | Source/CoreData/Driver.swift:237-240 | there is one deletion per attached object, in the objects' order: the attached object at index i makes the deletion following those of the attached objects before it |
| `Driver.DeletionsOfAllAttached` | Source/CoreData/Driver.swift:237-240 | when every object is attached, the i-th deletion is the i-th object's, made by its own context |
| `Driver.DeleteEntities` | Source/CoreData/Driver.swift:236-244 | returns true iff the read returned a list; then each object read is deleted through `delete(object:)`, and nothing is deleted otherwise |
| `Driver.SaveCallOutcome` | Source/CoreData/Driver.swift:318-345 | the closure runs the driver's `save` on the operation's context iff the permanent-ID step succeeded without an error; that save attempts the local save iff there are changes and, when it succeeds, starts the parent cascade; the callback is a success iff the permanent-ID step is clean and the save succeeds; a failure carries the permanent-ID error, or the save error when that step was clean |
| `Driver.RunSaveBlock` | Source/CoreData/Driver.swift:317-347 | a block that calls `save()` n times routes exactly n callbacks in order and reports the n saves it ran; the i-th callback and save are the outcome of the i-th call, a success exactly when the three success conditions hold |
| `Driver.BackgroundSaveCascadesIntoDefault` | Source/CoreData/Driver.swift:158-173 | for an operation built by a submission, a successful background save with changes starts the cascade at the default context, and goes on to the default context's parent, the writer, when that save succeeds |
| `Driver.Submit` | Source/CoreData/Driver.swift:349-353 | the operation is appended to the shared queue, under the default context; it depends on the previously last operation only when the caller does not wait |
| `Driver.SaveWithBlockWaitSave` | Source/CoreData/Driver.swift:314-357 | a nil block or a nil default context enqueues nothing and leaves the queue slot untouched; otherwise one save operation under the default context is appended to the shared queue, depending on the previously last operation unless the caller waits |
| `Driver.SaveWithBlock` | Source/CoreData/Driver.swift:269-274 | an operation is queued iff the default context exists, whether or not a block was given; it is a save operation under the default context, appended to the shared queue, and depends on the previously last operation unless the caller waits |
| `Driver.PerformBlock` | Source/CoreData/Driver.swift:376-396 | a nil block or a nil default context enqueues nothing; otherwise one operation carrying the block (and whether a completion exists) under the default context is appended to the shared queue, depending on the previously last operation unless the caller waits |
| `Driver.SubmitKeepsChain` | Source/CoreData/Driver.swift:484-490 | a non-waiting submission keeps every queued operation dependent on its predecessor |
| `Driver.PerformBlockKeepsChain` | Source/CoreData/Driver.swift:389-393 | non-waiting `performBlock` keeps the queue chained, so performed blocks and saves run one after another |
| `Driver.NonWaitingSubmitKeepsChain` | Source/CoreData/Driver.swift:351-352 | non-waiting submissions keep every queued operation dependent on its predecessor |
| `Driver.ManagedObjectContextFor` | Source/CoreData/Driver.swift:405-436 | the main queue and the main thread get the default context; a driver queue gets its executing operation's context, or nil; any other thread gets its cached context or a new private one under the default context, which is then cached |
| `Driver.ThreadContext` | Source/CoreData/Driver.swift:419-429 | a thread's own context is a private-queue context with the overwrite policy and no coordinator, whose parent is the default context, so its ancestors are the default context's chain |
| `Driver.RoutingIsStable` | Source/CoreData/Driver.swift:419-429 | asking again from the same caller returns the same context and cache |
| `Driver.RoutingLeavesOtherThreads` | Source/CoreData/Driver.swift:420-427 | routing never adds, removes or changes another thread's context |
| `Coordinators.AddWithRetry` | Source/ActiveRecord.swift:79-86 | a retry (after removing the store file) happens exactly when the first add fails and auto-delete is on, so there are at most two adds; a store is attached iff the first add or the retry succeeded |
| `Coordinators.LibraryCoordinator` | Source/ActiveRecord.swift:75-88 | the coordinator is nil iff auto-delete is on and both adds fail; the file is removed iff auto-delete is on and the first add failed |
| `Coordinators.LibraryCoordinatorRetriesOnce` | Source/ActiveRecord.swift:79-87 | with the driver's auto-delete flag, the coordinator is nil iff the retry also fails, and a non-nil coordinator always has a store |
| `Coordinators.LibraryCoordinatorWithoutAutoDelete` | Source/ActiveRecord.swift:80-86 | for every add outcome, without auto-delete the library hands out its coordinator after one add, with a store iff the add succeeded and no file removed, while the example's coordinator is nil exactly when that add fails |
| `Coordinators.AppCoordinator` | Examples/Example-Swift/Example-Swift/AppCoreDataStack.swift:60-79 | nil without a model (no add is tried); otherwise non-nil iff the first add succeeds or auto-delete is on and the retry succeeds; a non-nil coordinator always has a store |
| `Coordinators.VariantsAgreeWithAutoDelete` | Examples/Example-Swift/Example-Swift/AppCoreDataStack.swift:66-75 | with a model and auto-delete on, the example's coordinator setup equals the library's |
| `ContextStacks.WriterAccess` | Source/Context.swift:87-96 | the first access builds a private context attached to the coordinator with no parent and the overwrite policy, or nil when there is no coordinator then; later accesses return the cached value |
| `ContextStacks.DefaultAccess` | Source/Context.swift:76-85 | the first access gives nil without a coordinator, leaving the writer untouched; with one it builds a main-queue context whose parent is the writer accessor's answer, instantiating the writer; later accesses return the cached value |
| `ContextStacks.FreshStackWiring` | Source/Context.swift:76-96 | on a fresh stack with a coordinator, the default context's only ancestor is the writer, which is attached to the coordinator |
| `ContextStacks.FirstAccessFixesContexts` | Source/Context.swift:52-62 | once a context cell is filled, no later coordinator change or read alters it |
| `ContextStacks.NilDefaultIsPermanent` | Source/Context.swift:76-80 | a default context first read without a coordinator stays nil forever |
| `ContextStacks.LateCoordinatorOrphansDefault` | Source/Context.swift:82 | if the writer is read before the coordinator is set, a default context built later has no parent |
| `ContextStacks.AppCoordinatorAccess` | Examples/Example-Swift/Example-Swift/AppCoreDataStack.swift:60-126 | the first access caches the store name, keeping an already cached one and otherwise deriving it from the bundle name; the cached name ends in `sqlite`; the coordinator is nil iff both adds fail; later accesses return the cached coordinator with the stack unchanged; the migration flag is untouched |
| `ContextStacks.AppDefaultAccess` | Examples/Example-Swift/Example-Swift/AppCoreDataStack.swift:20-37 | a cached default context is returned again with the stack unchanged; on first use it is nil iff the (possibly already cached) coordinator is; a non-nil one has the writer, on the app's coordinator, as parent, and is cached |
| `ContextStacks.AppWriterAccess` | Examples/Example-Swift/Example-Swift/AppCoreDataStack.swift:41-57 | a cached writer is returned again with the stack unchanged; on first use it is nil iff the (possibly already cached) coordinator is; a non-nil one sits directly on the app's coordinator with the overwrite policy; the default cell is untouched |
| `ContextStacks.AppStackWiring` | Examples/Example-Swift/Example-Swift/AppCoreDataStack.swift:20-50 | when the store can be added, the default context's parent is the writer on the app's coordinator |
| `ContextStacks.InstantiateStack` | Source/CoreData/CoreDataStack.swift:54-57 | instantiating leaves exactly the cells that reading the default context leaves, and sets the confirmation flag; a default context built by it exists iff the coordinator does, with the writer on the app's coordinator as its parent |
| `Migration.NewMigrator` | Source/CoreData/CoreDataModel.swift:30-39 | a new migrator starts with `isConfirmedCompatibility` false |
| `Migration.Required` | Source/CoreData/CoreDataModel.swift:46-68 | migration is required iff there is a context, a store URL, a reachable store and a model, and the store is incompatible; a compatible store sets the flag, and nothing clears it |
| `Migration.ConfirmedCompatibilityIsMonotone` | Source/CoreData/CoreDataModel.swift:56-62 | once `isConfirmedCompatibility` is true, asking `required` any number of times keeps it true |
| `Migration.DriverIsRequiredMigration` | Source/CoreData/Driver.swift:454-456 | the driver's check is true iff the store is reachable, has a URL and a model, and is incompatible |
| `Migration.IsRequiredMigration` | Source/CoreData/CoreDataStack.swift:64-87 | false with no URL or an unreachable store, flag unchanged; a fatal error for a reachable store without a model; otherwise true iff incompatible, and a compatible store sets the flag |
| `Migration.BaseStackNeverRequiresMigration` | Source/CoreData/CoreDataStack.swift:47-49 | the base class's nil store URL never requires migration and leaves the flag alone |
| `Migration.ConfirmedFlagIsMonotone` | Source/CoreData/CoreDataStack.swift:54-81 | no sequence of instantiations and migration checks sets `migrationNotRequiredConfirmed` back to false |
| `Migration.InstantiateConfirms` | Source/CoreData/CoreDataStack.swift:54-57 | a run that instantiates the stack, without a fatal error, ends with the flag set |
| `ActiveRecord.CoordinatorAccess` | Source/ActiveRecord.swift:67-88 | the first access fixes the store name and gives nil iff both adds fail; later accesses return the cached value |
| `ActiveRecord.SetupDriver` | Source/ActiveRecord.swift:56-58 | the singleton's `setup` changes only the naming setting; the coordinator and context cells are untouched |
| `ActiveRecord.ContextAccess` | Source/ActiveRecord.swift:90-98 | a cached context, nil included, is returned again with the driver unchanged; on first access the context is nil iff the coordinator is nil, and otherwise is attached directly to that coordinator, with no parent |
| `ActiveRecord.NilContextIsPermanent` | Source/ActiveRecord.swift:90-98 | once the context came out nil, no later `setup` or access, in any environment, yields a context |
| `ActiveRecord.SetupAfterContextIgnored` | Source/ActiveRecord.swift:40-69 | once the context is built, a `setup` cannot change the store name any more |
| `ActiveRecord.SaveIn` | Source/ActiveRecord.swift:102-108 | an explicit context overrides the default; the chosen context is saved once iff it has changes; there is no cascade |
| `ActiveRecord.CreateIn` | Source/ActiveRecord.swift:112-117 | inserts into the explicit context if given, else the default; nil when neither exists |
| `ActiveRecord.ReadIn` | Source/ActiveRecord.swift:119-132 | fetches the entity with the predicate from the explicit context if given, else the default; nil when neither exists |
| `ActiveRecord.DeleteObjectIn` | Source/ActiveRecord.swift:134-138 | the chosen context deletes the object, whichever context holds it |
| `ActiveRecord.DeleteEntitiesIn` | Source/ActiveRecord.swift:140-148 | every object read is deleted, in order, through the default context; nothing is deleted when the read is nil or there is no default context |
| `ActiveRecord.DeleteEach` | Source/ActiveRecord.swift:143-145 | one deletion per object, in order, each through the default context |
| `ActiveRecord.DeleteEntitiesUsesDefaultContext` | Source/ActiveRecord.swift:141-146 | even with an explicit context, every deletion is made by the default context |
| `ActiveRecord.Create` | Source/ActiveRecord.swift:173-175 | creates in the default context, nil without one |
| `ActiveRecord.Find` | Source/ActiveRecord.swift:181-183 | fetches the entity with the predicate through the default context |
| `ActiveRecord.FindFirst` | Source/ActiveRecord.swift:185-190 | the first element of the read, nil when the read is nil or empty |
| `ActiveRecord.Delete` | Source/ActiveRecord.swift:192-194 | deletes through the object's own context, or the default context for a detached object |
| `ActiveRecord.Save` | Source/ActiveRecord.swift:204-206 | an explicit context is saved once iff it has changes; without one the default context is used |
| `ActiveRecord.CrudAgreesWithDriver` | Source/ActiveRecord.swift:102-132 | the library's create and read are the driver's `create` and `read` on the chosen context, with no sort, offset or limit; its save attempts the local save exactly when the driver's `save` would and reports the same outcome, without a cascade |
| `ActiveRecord.DeleteAgreesWithDriver` | Source/ActiveRecord.swift:134-138 | the public `delete` of an attached object is the driver's `delete(object:)` |
| `Events.EventCreate` | Example/Event.swift:29-31 | inserts an object of the entity named by `entityName()` into the default context |
| `Events.EventFind` | Example/Event.swift:33-36 | fetches the entity named by `entityName()` filtered by `attribute == value` |
| `Events.EventFindFirst` | Example/Event.swift:38-41 | the first object `find` returns for the same attribute and value, nil if none |
| `Events.EventSave` | Example/Event.swift:47-49 | saves the object's own context once iff it has changes; a detached object saves the default context once iff that exists and has changes; the attempt records whether CoreData's save succeeded |
| `Events.EventDelete` | Example/Event.swift:43-45 | deletes only the object itself: through its own context when it has one, otherwise through the default context, and not at all when neither exists |
| `Events.EventDeleteAgreesWithDriver` | Example/Event.swift:43-45 | for an attached event, `delete()` is the driver's `delete(object:)` |
| `Events.EventFindAgreesWithDriver` | Example/Event.swift:33-36 | `find` is the driver's `read` of the event entity with the equality predicate on the default context |
| `Events.EventSaveAgreesWithDriver` | Example/Event.swift:47-49 | for an attached event, `save()` attempts the local save exactly when the driver's `save(context:error:)` would and reports the same outcome |

## Left out

- Concurrency and timing:
  - `performBlock`, `performBlockAndWait` and `dispatch_sync`/`dispatch_async` to the main queue are not modelled, and neither is NSOperationQueue scheduling.
  - Callbacks and cascade saves are modelled only as sequential outcomes.
  - The model assumes the cascade runs after `save` reads its error pointer, so cascade failures never change `save`'s result here. In the source the parent saves are dispatched with `performBlock` and race with that read, so a failing parent save on a private-queue parent can write the pointer first.
- `saveWithBlockAndWait(block:error:)` (Source/CoreData/Driver.swift:284-293): its result depends on whether a failure callback, dispatched asynchronously in two branches, has run before it returns. That is a timing question.
- The non-waiting overloads (Source/CoreData/Driver.swift:253-258, 302-304, 365-367) only pass `waitUntilFinished: false`. They are the `wait` parameter of the modelled functions.
- `mainContext()` (Source/CoreData/Driver.swift:444-446) only returns the default context.
- Optional `saveSuccess`/`saveFailure` handlers: invoking a nil handler does nothing. The model records which handler a `save()` call routes to, not whether the handler is nil.
- The error pointer after a save records the local save only, not errors the cascade writes later.
- CoreData internals are oracles in `Engine`: fetch execution, predicate evaluation, sort descriptors, change tracking, permanent-ID assignment, and model/store compatibility. A single `Engine` value answers for one step, so the model does not track how a save clears `hasChanges`.
- File system and bundle: the bundle name, the documents directory, `storeURL` construction, `removeItemAtURL` and reachability are inputs.
- `StoreNames.WithSqliteSuffix`: requires a non-empty name without a trailing `/` whenever the extension is appended, because Foundation's `stringByAppendingPathExtension` path normalisation of other names is not modelled. `StoreNames.DefaultStoreName` and `StoreNames.BundleStoreName` inherit this precondition.
- Force-unwrapped managed object models (`mergedModelFromBundles(nil)!`) crash when absent, so the example stack always has a model. `ARContext`'s own model and store URL are inputs to the migration check.
- The library's public `delete(entityName:)` wrappers (Source/ActiveRecord.swift:196-202) pass no context. They are `ActiveRecord.DeleteEntitiesIn` with the context argument nil. The public `managedObjectContext()` (Source/ActiveRecord.swift:167-169) is `ActiveRecord.ContextAccess`.
- `OperationQueues.TearDown`: records that the driver's context is handed to the tear-down callback, but not what the callback does. That is caller code.
- Lazy state forced by reading the default or routed context: the driver's operations take the default context, and `read(fetchRequest:)` takes the routed context, as inputs (`Driver.Submit`, `Driver.SaveWithBlockWaitSave`, `Driver.PerformBlock`, `Driver.ReadRequest`, the `ActiveRecord` CRUD functions). `Driver.RecursiveSave` also reads the writer and default contexts, only to choose a log message, and that read is not modelled either. In the source, reading `defaultManagedObjectContext` or `managedObjectContext()` can force lazy cells: it can fix the store name, cache a nil context for good, or create and cache a thread's context. That forcing is modelled separately by `ContextStacks.DefaultAccess`, `ActiveRecord.ContextAccess` and `Driver.ManagedObjectContextFor`, and is not threaded through these operations.
- `OperationQueues.AddOperation`: finished operations are never removed from the modelled queue, whereas `NSOperationQueue.operations` drops them. So "the previously last operation" means the last one submitted since `tearDown`. After a waiting submission has finished, the model still gives the next non-waiting operation a dependency on it; the source finds no last operation there and adds none. The same holds for `Driver.Submit` and the members built on it.
- `OperationQueues.AddOperationsWaiting`: assumes Foundation's `addOperations(_:waitUntilFinished:)` does not route through the overridden `addOperation`. Foundation's code is not part of this model.
- Logging (`Log.print`, `arprint`) and the `Printable` descriptions are not modelled.
- `ActiveRecordConfig` only holds one settable reference, so there is nothing to state.
- The UI and app-lifecycle files, the older example copy under `Example/Example Swift/`, and the test fixtures are not part of this model.

=== FILE: active_record.dfy ===
/**
 The library's singleton driver and its free functions (Source/ActiveRecord.swift):
 the lazily derived store name and coordinator, one confinement context, and
 CRUD helpers where an explicit context overrides that default context.
 */
module ActiveRecord {
  import opened Wrappers
  import opened CoreData
  import opened StoreNames
  import opened Coordinators
  import Driver

  const LibraryCoordinatorId: CoordinatorId := 1
  const LibraryContextId: ContextId := 1

  /** The singleton's lazy state: the naming state, the coordinator cell, the context cell. */
  datatype LibraryDriver = LibraryDriver(
    naming: NameState,
    coordinatorCell: Lazy<Option<CoordinatorId>>,
    contextCell: Lazy<Option<ManagedContext>>)

  const NewLibraryDriver: LibraryDriver := LibraryDriver(InitialNameState, Unset, Unset)

  /** What the driver finds outside itself: the bundle name and the store adds' outcomes. */
  datatype LibraryEnvironment = LibraryEnvironment(bundleName: Option<string>, adds: AddStoreOutcomes)

  /** A coordinator is built only after the store name is fixed; a context only after the coordinator. */
  predicate WellFormed(d: LibraryDriver) {
    && (d.coordinatorCell.Cached? ==> d.naming.cached.Cached?)
    && (d.contextCell.Cached? ==> d.coordinatorCell.Cached?)
    && (d.contextCell.Cached? && d.coordinatorCell.Cached? ==>
          (d.contextCell.value.None? <==> d.coordinatorCell.value.None?))
  }

  /** `setup(storeName:)`. */
  function SetupDriver(d: LibraryDriver, name: string): (r: LibraryDriver)
    ensures r.naming == Setup(d.naming, name)
    ensures r.coordinatorCell == d.coordinatorCell && r.contextCell == d.contextCell
  {
    d.(naming := Setup(d.naming, name))
  }

  datatype CoordinatorRead = CoordinatorRead(coordinator: Option<CoordinatorId>, driver: LibraryDriver)

  /** `persistentStoreCoordinator`: first access reads the store URL (fixing the name), then adds with one retry. */
  function CoordinatorAccess(d: LibraryDriver, env: LibraryEnvironment): (r: CoordinatorRead)
    requires WellFormed(d) && Readable(d.naming, env.bundleName)
    ensures WellFormed(r.driver) && r.driver.contextCell == d.contextCell
    ensures r.driver.coordinatorCell == Cached(r.coordinator) && r.driver.naming.cached.Cached?
    ensures d.coordinatorCell.Cached? ==> r == CoordinatorRead(d.coordinatorCell.value, d)
    ensures d.coordinatorCell.Unset? ==>
      (r.coordinator.None? <==> !env.adds.firstAddSucceeds && !env.adds.retryAddSucceeds)
    ensures r.driver.naming.cached == ReadStoreName(d.naming, env.bundleName).state.cached
  {
    match d.coordinatorCell
    case Cached(c) => CoordinatorRead(c, d)
    case Unset =>
      var naming := ReadStoreName(d.naming, env.bundleName).state;
      var c := LibraryCoordinator(LibraryAutoDelete, env.adds, LibraryCoordinatorId).coordinator;
      CoordinatorRead(c, d.(naming := naming, coordinatorCell := Cached(c)))
  }

  datatype ContextRead = ContextRead(context: Option<ManagedContext>, driver: LibraryDriver)

  /** `managedObjectContext`: nil iff the coordinator is nil, otherwise a plain context on that coordinator. */
  function ContextAccess(d: LibraryDriver, env: LibraryEnvironment): (r: ContextRead)
    requires WellFormed(d) && Readable(d.naming, env.bundleName)
    ensures WellFormed(r.driver)
    ensures r.driver.contextCell == Cached(r.context)
    ensures d.contextCell.Cached? ==> r == ContextRead(d.contextCell.value, d)
    ensures r.driver.coordinatorCell.Cached? && (r.context.None? <==> r.driver.coordinatorCell.value.None?)
    ensures d.contextCell.Unset? ==> (r.context.None? <==> CoordinatorAccess(d, env).coordinator.None?)
    ensures d.contextCell.Unset? && r.context.Some? ==>
      && r.context.value.coordinator == CoordinatorAccess(d, env).coordinator
      && r.context.value.parent.None? && r.context.value.concurrency == Confinement
  {
    match d.contextCell
    case Cached(c) => ContextRead(c, d)
    case Unset =>
      var cr := CoordinatorAccess(d, env);
      var c := if cr.coordinator.None? then None
               else Some(ManagedContext(LibraryContextId, Confinement, None, cr.coordinator, ErrorMergePolicy));
      ContextRead(c, cr.driver.(contextCell := Cached(c)))
  }

  /** Once the context has been built, the store name is fixed: a later `setup` is not seen. */
  lemma SetupAfterContextIgnored(d: LibraryDriver, env: LibraryEnvironment, name: string, laterBundle: Option<string>)
    requires WellFormed(d) && Readable(d.naming, env.bundleName)
    ensures var built := ContextAccess(d, env).driver;
      var later := SetupDriver(built, name);
      Readable(later.naming, laterBundle)
      && ReadStoreName(later.naming, laterBundle).name == ReadStoreName(built.naming, laterBundle).name
  {
  }

  /** A nil context is cached for good: neither a later `setup` nor another access brings a context. */
  lemma NilContextIsPermanent(d: LibraryDriver, env: LibraryEnvironment, name: string, laterEnv: LibraryEnvironment)
    requires WellFormed(d) && Readable(d.naming, env.bundleName)
    requires ContextAccess(d, env).context.None?
    ensures var later := SetupDriver(ContextAccess(d, env).driver, name);
      WellFormed(later) && Readable(later.naming, laterEnv.bundleName)
      && ContextAccess(later, laterEnv).context.None?
  {
  }

  // ----- CRUD with an optional explicit context -----

  /** The private `save(context:)`: saves the chosen context only when it has changes; no cascade. */
  function SaveIn(context: Option<ManagedContext>, defaultContext: Option<ManagedContext>, e: Engine)
    : (r: seq<Driver.SaveAttempt>)
    ensures |r| <= 1
    ensures |r| == 1 <==> OrElse(context, defaultContext).Some? && e.hasChanges(OrElse(context, defaultContext).value.id)
    ensures |r| == 1 ==> r[0].context == OrElse(context, defaultContext).value
    ensures |r| == 1 ==> r[0].succeeded == e.saveSucceeds(r[0].context.id)
  {
    match OrElse(context, defaultContext)
    case None => []
    case Some(moc) => if e.hasChanges(moc.id) then [Driver.SaveAttempt(moc, e.saveSucceeds(moc.id))] else []
  }

  /** The private `create`: inserts into the chosen context. */
  function CreateIn(entityName: string, context: Option<ManagedContext>, defaultContext: Option<ManagedContext>, e: Engine)
    : (r: Option<ManagedObject>)
    ensures r.Some? <==> context.Some? || defaultContext.Some?
    ensures r.Some? ==> r.value.context == OrElse(context, defaultContext)
  {
    Driver.Create(entityName, OrElse(context, defaultContext), e)
  }

  /** The private `read`: fetches from the chosen context, with the predicate if one is given. */
  function ReadIn(entityName: string, pred: Option<Predicate>, context: Option<ManagedContext>,
                  defaultContext: Option<ManagedContext>, e: Engine): (r: Option<seq<ManagedObject>>)
    ensures OrElse(context, defaultContext).None? ==> r.None?
    ensures OrElse(context, defaultContext).Some? ==>
      r == e.fetch(OrElse(context, defaultContext).value.id, NewFetchRequest(entityName).(fetchPredicate := pred))
  {
    Driver.Read(entityName, pred, None, None, None, OrElse(context, defaultContext), e)
  }

  /** The private `delete(object:context:)`: the chosen context deletes the object, whichever context holds it. */
  function DeleteObjectIn(obj: ManagedObject, context: Option<ManagedContext>, defaultContext: Option<ManagedContext>)
    : (r: seq<Driver.Deletion>)
    ensures |r| == 1 <==> OrElse(context, defaultContext).Some?
    ensures |r| <= 1
    ensures |r| == 1 ==> r[0] == Driver.Deletion(OrElse(context, defaultContext).value.id, obj.id)
  {
    match OrElse(context, defaultContext)
    case None => []
    case Some(moc) => [Driver.Deletion(moc.id, obj.id)]
  }

  /**
   The private `delete(entityName:predicate:context:)`: reads through the
   chosen context but deletes each object with no context argument, that is
   through the default context.
   */
  function DeleteEntitiesIn(entityName: string, pred: Option<Predicate>, context: Option<ManagedContext>,
                            defaultContext: Option<ManagedContext>, e: Engine): (r: seq<Driver.Deletion>)
    ensures var read := ReadIn(entityName, pred, context, defaultContext, e);
      && (read.None? || defaultContext.None? ==> r == [])
      && (read.Some? && defaultContext.Some? ==>
            |r| == |read.value|
            && forall i :: 0 <= i < |r| ==> r[i] == Driver.Deletion(defaultContext.value.id, read.value[i].id))
  {
    match ReadIn(entityName, pred, context, defaultContext, e)
    case None => []
    case Some(objects) => DeleteEach(objects, defaultContext)
  }

  /** Deleting each object through the no-context call, in order. */
  function DeleteEach(objects: seq<ManagedObject>, defaultContext: Option<ManagedContext>): (r: seq<Driver.Deletion>)
    ensures defaultContext.None? ==> r == []
    ensures defaultContext.Some? ==>
      |r| == |objects| && forall i :: 0 <= i < |r| ==> r[i] == Driver.Deletion(defaultContext.value.id, objects[i].id)
    decreases |objects|
  {
    if objects == [] then []
    else DeleteObjectIn(objects[0], None, defaultContext) + DeleteEach(objects[1..], defaultContext)
  }

  /** Even with an explicit context, every deletion goes through the default context. */
  lemma DeleteEntitiesUsesDefaultContext(entityName: string, pred: Option<Predicate>, context: Option<ManagedContext>,
                                         defaultContext: Option<ManagedContext>, e: Engine)
    ensures forall d :: d in DeleteEntitiesIn(entityName, pred, context, defaultContext, e) ==>
      defaultContext.Some? && d.context == defaultContext.value.id
  {
    var r := DeleteEntitiesIn(entityName, pred, context, defaultContext, e);
    forall d | d in r
      ensures defaultContext.Some? && d.context == defaultContext.value.id
    {
      var i :| 0 <= i < |r| && r[i] == d;
    }
  }

  // ----- the public free functions -----

  /** `create(entityName)`. */
  function Create(entityName: string, defaultContext: Option<ManagedContext>, e: Engine): (r: Option<ManagedObject>)
    ensures r.Some? <==> defaultContext.Some?
    ensures r.Some? ==> r.value.context == defaultContext && r.value.id == e.insert(defaultContext.value.id, entityName)
  {
    CreateIn(entityName, None, defaultContext, e)
  }

  /** `find(entityName:predicate:)`. */
  function Find(entityName: string, pred: Option<Predicate>, defaultContext: Option<ManagedContext>, e: Engine)
    : (r: Option<seq<ManagedObject>>)
    ensures defaultContext.None? ==> r.None?
    ensures defaultContext.Some? ==>
      r == e.fetch(defaultContext.value.id, NewFetchRequest(entityName).(fetchPredicate := pred))
  {
    ReadIn(entityName, pred, None, defaultContext, e)
  }

  /** `findFirst(entityName:predicate:)`: the first object read, nil if the read is nil or empty. */
  function FindFirst(entityName: string, pred: Option<Predicate>, defaultContext: Option<ManagedContext>, e: Engine)
    : (r: Option<ManagedObject>)
    ensures var read := Find(entityName, pred, defaultContext, e);
      && (r.Some? <==> read.Some? && |read.value| > 0)
      && (r.Some? ==> r.value == read.value[0])
  {
    match Find(entityName, pred, defaultContext, e)
    case None => None
    case Some(objects) => if |objects| > 0 then Some(objects[0]) else None
  }

  /** `delete(object)`: deletes through the object's own context, or the default one if it has none. */
  function Delete(obj: ManagedObject, defaultContext: Option<ManagedContext>): (r: seq<Driver.Deletion>)
    ensures obj.context.Some? ==> r == [Driver.Deletion(obj.context.value.id, obj.id)]
    ensures obj.context.None? && defaultContext.Some? ==> r == [Driver.Deletion(defaultContext.value.id, obj.id)]
    ensures obj.context.None? && defaultContext.None? ==> r == []
  {
    DeleteObjectIn(obj, obj.context, defaultContext)
  }

  /** `save(context:)`. */
  function Save(context: Option<ManagedContext>, defaultContext: Option<ManagedContext>, e: Engine)
    : (r: seq<Driver.SaveAttempt>)
    ensures context.Some? && e.hasChanges(context.value.id) ==> r == [Driver.SaveAttempt(context.value, e.saveSucceeds(context.value.id))]
    ensures context.Some? && !e.hasChanges(context.value.id) ==> r == []
    ensures context.None? ==> r == SaveIn(None, defaultContext, e)
  {
    SaveIn(context, defaultContext, e)
  }

  // ----- agreement with the CoreData driver -----

  /**
   The library's create and read are the driver's, applied to the chosen
   context with no sort, offset or limit; the library's save is the
   driver's local save without the error pointer and without the cascade.
   */
  lemma CrudAgreesWithDriver(entityName: string, pred: Option<Predicate>, context: Option<ManagedContext>,
                             defaultContext: Option<ManagedContext>, e: Engine)
    ensures CreateIn(entityName, context, defaultContext, e) == Driver.Create(entityName, OrElse(context, defaultContext), e)
    ensures ReadIn(entityName, pred, context, defaultContext, e)
         == Driver.Read(entityName, pred, None, Some(0), Some(0), OrElse(context, defaultContext), e)
    ensures var saved := Driver.Save(OrElse(context, defaultContext), Driver.PointerTo(None), e);
      && (|SaveIn(context, defaultContext, e)| == 1 <==> saved.localSaveAttempted)
      && (|SaveIn(context, defaultContext, e)| == 1 ==> SaveIn(context, defaultContext, e)[0].succeeded == saved.succeeded)
      && (OrElse(context, defaultContext).Some? && SaveIn(context, defaultContext, e) == [] ==> saved.succeeded)
  {
    Driver.NonPositiveParametersIgnored(entityName, pred, None, Some(0), Some(0));
  }

  /** The public `delete` of an attached object is the driver's `delete(object:)`. */
  lemma DeleteAgreesWithDriver(obj: ManagedObject, defaultContext: Option<ManagedContext>)
    requires obj.context.Some?
    ensures Delete(obj, defaultContext) == Driver.DeleteObject(Some(obj))
  {
  }
}

=== FILE: context_stack.dfy ===
/**
 The lazily built context stack of `ARContext` (Source/Context.swift) and of
 the example's `AppCoreDataStack`: a main-queue default context whose parent
 is a private writer context attached to the coordinator.
 */
module ContextStacks {
  import opened Wrappers
  import opened CoreData
  import opened StoreNames
  import opened Coordinators

  const DefaultContextId: ContextId := 1
  const WriterContextId: ContextId := 2

  /** The two `lazy var` cells holding the contexts. */
  datatype ContextCells = ContextCells(defaultCell: Lazy<Option<ManagedContext>>, writerCell: Lazy<Option<ManagedContext>>)

  const EmptyCells: ContextCells := ContextCells(Unset, Unset)

  /** A context accessor's answer and the cells afterwards. */
  datatype ContextAccess = ContextAccess(context: Option<ManagedContext>, cells: ContextCells)

  /** The writer context: private queue, no parent, attached to the coordinator, overwrite policy. */
  predicate IsWriterContext(w: ManagedContext, coordinator: CoordinatorId) {
    && w.id == WriterContextId && w.concurrency == PrivateQueue && w.parent.None?
    && w.coordinator == Some(coordinator) && w.mergePolicy == OverwriteMergePolicy
  }

  /** The default context: main queue, parent `writer`, no coordinator of its own, overwrite policy. */
  predicate IsDefaultContext(d: ManagedContext, writer: Option<ManagedContext>) {
    && d.id == DefaultContextId && d.concurrency == MainQueue && d.parent == writer
    && d.coordinator.None? && d.mergePolicy == OverwriteMergePolicy
  }

  /** `writerManagedObjectContext`: built on first access, nil if there is no coordinator then. */
  function WriterAccess(coordinator: Option<CoordinatorId>, cells: ContextCells): (r: ContextAccess)
    ensures r.cells.writerCell == Cached(r.context) && r.cells.defaultCell == cells.defaultCell
    ensures cells.writerCell.Cached? ==> r.context == cells.writerCell.value
    ensures cells.writerCell.Unset? ==> (r.context.None? <==> coordinator.None?)
    ensures cells.writerCell.Unset? && r.context.Some? ==> IsWriterContext(r.context.value, coordinator.value)
  {
    match cells.writerCell
    case Cached(w) => ContextAccess(w, cells)
    case Unset =>
      var w := match coordinator
        case None => None
        case Some(c) => Some(ManagedContext(WriterContextId, PrivateQueue, None, Some(c), OverwriteMergePolicy));
      ContextAccess(w, cells.(writerCell := Cached(w)))
  }

  /**
   `defaultManagedObjectContext`: built on first access, nil if there is no
   coordinator then; building it reads the writer context for its parent.
   */
  function DefaultAccess(coordinator: Option<CoordinatorId>, cells: ContextCells): (r: ContextAccess)
    ensures r.cells.defaultCell == Cached(r.context)
    ensures cells.defaultCell.Cached? ==> r == ContextAccess(cells.defaultCell.value, cells)
    ensures cells.defaultCell.Unset? && coordinator.None? ==> r.context.None? && r.cells.writerCell == cells.writerCell
    ensures cells.defaultCell.Unset? && coordinator.Some? ==>
      var w := WriterAccess(coordinator, cells);
      r.context.Some? && IsDefaultContext(r.context.value, w.context) && r.cells.writerCell == w.cells.writerCell
  {
    match cells.defaultCell
    case Cached(d) => ContextAccess(d, cells)
    case Unset =>
      if coordinator.None? then ContextAccess(None, cells.(defaultCell := Cached(None)))
      else
        var w := WriterAccess(coordinator, cells);
        var d := Some(ManagedContext(DefaultContextId, MainQueue, w.context, None, OverwriteMergePolicy));
        ContextAccess(d, w.cells.(defaultCell := Cached(d)))
  }

  /** On a fresh stack with a coordinator: default → writer → coordinator, and the writer is instantiated too. */
  lemma FreshStackWiring(coordinator: CoordinatorId)
    ensures var r := DefaultAccess(Some(coordinator), EmptyCells);
      && r.context.Some? && r.cells.writerCell.Cached? && r.cells.writerCell.value.Some?
      && IsDefaultContext(r.context.value, r.cells.writerCell.value)
      && IsWriterContext(r.cells.writerCell.value.value, coordinator)
      && Ancestors(r.context.value) == [r.cells.writerCell.value.value]
  {
  }

  // ----- ARContext: a settable coordinator -----

  /** `ARContext`: a settable `persistentStoreCoordinator` and the two lazy contexts. */
  datatype ArContext = ArContext(coordinator: Option<CoordinatorId>, cells: ContextCells)

  const NewArContext: ArContext := ArContext(None, EmptyCells)

  datatype ArContextEvent = SetCoordinator(coordinator: Option<CoordinatorId>) | ReadDefault | ReadWriter

  function Step(s: ArContext, ev: ArContextEvent): ArContext {
    match ev
    case SetCoordinator(c) => s.(coordinator := c)
    case ReadDefault => s.(cells := DefaultAccess(s.coordinator, s.cells).cells)
    case ReadWriter => s.(cells := WriterAccess(s.coordinator, s.cells).cells)
  }

  function Run(s: ArContext, events: seq<ArContextEvent>): ArContext
    decreases |events|
  {
    if events == [] then s else Run(Step(s, events[0]), events[1..])
  }

  /** Each lazy context is fixed by its first access: nothing that follows, not even a new coordinator, changes it. */
  lemma {:induction false} FirstAccessFixesContexts(s: ArContext, events: seq<ArContextEvent>)
    ensures s.cells.defaultCell.Cached? ==> Run(s, events).cells.defaultCell == s.cells.defaultCell
    ensures s.cells.writerCell.Cached? ==> Run(s, events).cells.writerCell == s.cells.writerCell
    decreases |events|
  {
    if events != [] {
      FirstAccessFixesContexts(Step(s, events[0]), events[1..]);
    }
  }

  /** A default context first read without a coordinator stays nil, whatever coordinator is set later. */
  lemma NilDefaultIsPermanent(events: seq<ArContextEvent>)
    ensures var s := Run(Step(NewArContext, ReadDefault), events);
      DefaultAccess(s.coordinator, s.cells).context.None?
  {
    FirstAccessFixesContexts(Step(NewArContext, ReadDefault), events);
  }

  /**
   The writer read before the coordinator is set stays nil, so a default
   context built after the coordinator arrives has no parent at all.
   */
  lemma LateCoordinatorOrphansDefault(coordinator: CoordinatorId)
    ensures var s := Run(NewArContext, [ReadWriter, SetCoordinator(Some(coordinator)), ReadDefault]);
      s.cells.defaultCell.Cached? && s.cells.defaultCell.value.Some? && s.cells.defaultCell.value.value.parent.None?
  {
    var s1 := Step(NewArContext, ReadWriter);
    assert s1.cells.writerCell == Cached(None);
    var s2 := Step(s1, SetCoordinator(Some(coordinator)));
    var s3 := Step(s2, ReadDefault);
    assert s3.cells.defaultCell.value.value.parent.None?;
    var events := [ReadWriter, SetCoordinator(Some(coordinator)), ReadDefault];
    assert events[1..][1..][1..] == [];
    assert Run(s3, []) == s3;
    assert Run(NewArContext, events) == Run(s1, events[1..]) == Run(s2, events[1..][1..]) == Run(s3, []);
  }

  // ----- AppCoreDataStack: a lazily built coordinator -----

  /** The example app's `automaticallyDeleteStoreOnMismatch`, a constant. */
  const AppAutoDelete: bool := true

  const AppCoordinatorId: CoordinatorId := 1

  /** What the app's stack finds outside itself: the bundle name and the store adds' outcomes. */
  datatype AppEnvironment = AppEnvironment(bundleName: Option<string>, adds: AddStoreOutcomes)

  predicate ValidEnvironment(env: AppEnvironment) {
    env.bundleName.Some? ==> Normalizable(env.bundleName.value)
  }

  /** The example's `AppCoreDataStack` state, including the base class's migration flag. */
  datatype AppStack = AppStack(
    nameCell: Lazy<string>,
    coordinatorCell: Lazy<Option<CoordinatorId>>,
    cells: ContextCells,
    migrationNotRequiredConfirmed: bool)

  const NewAppStack: AppStack := AppStack(Unset, Unset, EmptyCells, false)

  /**
   The order the lazy values are forced in: a context needs the coordinator,
   the coordinator needs the store name, and the only coordinator is the app's.
   */
  predicate WellFormed(s: AppStack) {
    && (s.coordinatorCell.Cached? ==> s.nameCell.Cached?)
    && (s.coordinatorCell.Cached? && s.coordinatorCell.value.Some? ==> s.coordinatorCell.value.value == AppCoordinatorId)
    && (s.cells.defaultCell.Cached? || s.cells.writerCell.Cached? ==> s.coordinatorCell.Cached?)
    && (s.nameCell.Cached? ==> HasSuffix(s.nameCell.value, SqliteSuffix))
    && StackWired(s)
  }

  /**
   What the cached contexts look like: each exists iff the cached coordinator
   does, the writer sits on the app's coordinator, and the default context's
   parent is that writer.
   */
  predicate StackWired(s: AppStack) {
    && (s.cells.writerCell.Cached? && s.coordinatorCell.Cached? ==>
          (s.cells.writerCell.value.Some? <==> s.coordinatorCell.value.Some?))
    && (s.cells.writerCell.Cached? && s.cells.writerCell.value.Some? ==>
          IsWriterContext(s.cells.writerCell.value.value, AppCoordinatorId))
    && (s.cells.defaultCell.Cached? && s.coordinatorCell.Cached? ==>
          (s.cells.defaultCell.value.Some? <==> s.coordinatorCell.value.Some?))
    && (s.cells.defaultCell.Cached? && s.cells.defaultCell.value.Some? ==>
          && s.cells.writerCell.Cached? && s.cells.writerCell.value.Some?
          && IsDefaultContext(s.cells.defaultCell.value.value, s.cells.writerCell.value))
  }

  datatype CoordinatorAccess = CoordinatorAccess(coordinator: Option<CoordinatorId>, stack: AppStack)

  /**
   `persistentStoreCoordinator`: on first access reads the store URL (and so
   fixes the store name) and runs the add-with-retry; the model always exists
   because the stack force-unwraps it.
   */
  function AppCoordinatorAccess(s: AppStack, env: AppEnvironment): (r: CoordinatorAccess)
    requires ValidEnvironment(env) && WellFormed(s)
    ensures WellFormed(r.stack)
    ensures r.stack.coordinatorCell == Cached(r.coordinator) && r.stack.cells == s.cells
    ensures s.coordinatorCell.Cached? ==> r == CoordinatorAccess(s.coordinatorCell.value, s)
    ensures s.coordinatorCell.Unset? ==>
      (r.coordinator.None? <==> !env.adds.firstAddSucceeds && !env.adds.retryAddSucceeds)
    ensures s.coordinatorCell.Unset? ==>
      r.stack.nameCell == Cached(if s.nameCell.Cached? then s.nameCell.value else BundleStoreName(env.bundleName))
    ensures r.stack.nameCell.Cached? && HasSuffix(r.stack.nameCell.value, SqliteSuffix)
    ensures r.stack.migrationNotRequiredConfirmed == s.migrationNotRequiredConfirmed
    ensures r.coordinator.Some? ==> r.coordinator.value == AppCoordinatorId
  {
    match s.coordinatorCell
    case Cached(c) => CoordinatorAccess(c, s)
    case Unset =>
      var name := if s.nameCell.Cached? then s.nameCell.value else BundleStoreName(env.bundleName);
      var c := AppCoordinator(true, AppAutoDelete, env.adds, AppCoordinatorId).coordinator;
      CoordinatorAccess(c, s.(nameCell := Cached(name), coordinatorCell := Cached(c)))
  }

  datatype AppContextAccess = AppContextAccess(context: Option<ManagedContext>, stack: AppStack)

  /** The app's `defaultManagedObjectContext`. */
  function AppDefaultAccess(s: AppStack, env: AppEnvironment): (r: AppContextAccess)
    requires ValidEnvironment(env) && WellFormed(s)
    ensures WellFormed(r.stack)
    ensures s.cells.defaultCell.Cached? ==> r == AppContextAccess(s.cells.defaultCell.value, s)
    ensures s.cells.defaultCell.Unset? ==> (r.context.None? <==> AppCoordinatorAccess(s, env).coordinator.None?)
    ensures s.cells.defaultCell.Unset? && s.coordinatorCell.Unset? ==>
      (r.context.None? <==> !env.adds.firstAddSucceeds && !env.adds.retryAddSucceeds)
    ensures r.context.Some? ==>
      && r.stack.cells.writerCell.Cached? && r.stack.cells.writerCell.value.Some?
      && IsDefaultContext(r.context.value, r.stack.cells.writerCell.value)
      && IsWriterContext(r.stack.cells.writerCell.value.value, AppCoordinatorId)
    ensures r.stack.cells.defaultCell == Cached(r.context)
    ensures r.stack.migrationNotRequiredConfirmed == s.migrationNotRequiredConfirmed
  {
    var c := AppCoordinatorAccess(s, env);
    var d := DefaultAccess(c.coordinator, c.stack.cells);
    AppContextAccess(d.context, c.stack.(cells := d.cells))
  }

  /** The app's `writerManagedObjectContext`. */
  function AppWriterAccess(s: AppStack, env: AppEnvironment): (r: AppContextAccess)
    requires ValidEnvironment(env) && WellFormed(s)
    ensures WellFormed(r.stack)
    ensures s.cells.writerCell.Cached? ==> r == AppContextAccess(s.cells.writerCell.value, s)
    ensures s.cells.writerCell.Unset? ==> (r.context.None? <==> AppCoordinatorAccess(s, env).coordinator.None?)
    ensures s.cells.writerCell.Unset? && s.coordinatorCell.Unset? ==>
      (r.context.None? <==> !env.adds.firstAddSucceeds && !env.adds.retryAddSucceeds)
    ensures r.context.Some? ==> IsWriterContext(r.context.value, AppCoordinatorId)
    ensures r.stack.cells.writerCell == Cached(r.context)
    ensures r.stack.cells.defaultCell == s.cells.defaultCell
    ensures r.stack.migrationNotRequiredConfirmed == s.migrationNotRequiredConfirmed
  {
    var c := AppCoordinatorAccess(s, env);
    var w := WriterAccess(c.coordinator, c.stack.cells);
    AppContextAccess(w.context, c.stack.(cells := w.cells))
  }

  /** `instantiateStack()`: reads the default context (building the stack) and sets the confirmation flag. */
  function InstantiateStack(s: AppStack, env: AppEnvironment): (r: AppStack)
    requires ValidEnvironment(env) && WellFormed(s)
    ensures WellFormed(r)
    ensures r.migrationNotRequiredConfirmed
    ensures r.cells.defaultCell.Cached? && r.coordinatorCell.Cached? && r.nameCell.Cached?
    ensures var built := AppDefaultAccess(s, env).stack;
      r.cells == built.cells && r.coordinatorCell == built.coordinatorCell && r.nameCell == built.nameCell
    ensures s.cells.defaultCell.Unset? ==>
      (r.cells.defaultCell.value.Some? <==> AppCoordinatorAccess(s, env).coordinator.Some?)
    ensures r.cells.defaultCell.value.Some? ==>
      && r.cells.writerCell.Cached? && r.cells.writerCell.value.Some?
      && IsDefaultContext(r.cells.defaultCell.value.value, r.cells.writerCell.value)
      && IsWriterContext(r.cells.writerCell.value.value, AppCoordinatorId)
  {
    AppDefaultAccess(s, env).stack.(migrationNotRequiredConfirmed := true)
  }

  /** On a fresh app stack whose store can be added, the default context's parent is the writer on the app's coordinator. */
  lemma AppStackWiring(env: AppEnvironment)
    requires ValidEnvironment(env)
    requires env.adds.firstAddSucceeds || env.adds.retryAddSucceeds
    ensures var r := AppDefaultAccess(NewAppStack, env);
      && r.context.Some? && r.stack.cells.writerCell.Cached? && r.stack.cells.writerCell.value.Some?
      && IsDefaultContext(r.context.value, r.stack.cells.writerCell.value)
      && IsWriterContext(r.stack.cells.writerCell.value.value, AppCoordinatorId)
  {
  }
}

=== FILE: coordinator.dfy ===
/**
 Building the persistent store coordinator: add the SQLite store, and when
 that fails remove the store file and add it once more.  Two variants exist:
 the library's driver (Source/ActiveRecord.swift) and the example
 application's stack (Examples/Example-Swift/Example-Swift/AppCoreDataStack.swift).
 */
module Coordinators {
  import opened Wrappers
  import opened CoreData

  /** What the two `addPersistentStoreWithType` calls answer: the first, and the one after the file is removed. */
  datatype AddStoreOutcomes = AddStoreOutcomes(firstAddSucceeds: bool, retryAddSucceeds: bool)

  /** The coordinator handed out, whether a store is attached to it, whether the file was removed, how many adds ran. */
  datatype StoreSetup = StoreSetup(
    coordinator: Option<CoordinatorId>, storeAttached: bool, storeFileRemoved: bool, addAttempts: nat)

  /** The add, remove, add-again walk both variants share. */
  datatype AddWalk = AddWalk(attached: bool, fileRemoved: bool, attempts: nat)

  function AddWithRetry(autoDelete: bool, adds: AddStoreOutcomes): (w: AddWalk)
    ensures 1 <= w.attempts <= 2
    ensures w.attempts == 2 <==> !adds.firstAddSucceeds && autoDelete
    ensures w.fileRemoved <==> w.attempts == 2
    ensures w.attached <==> adds.firstAddSucceeds || (w.attempts == 2 && adds.retryAddSucceeds)
  {
    if adds.firstAddSucceeds then AddWalk(true, false, 1)
    else if autoDelete then AddWalk(adds.retryAddSucceeds, true, 2)
    else AddWalk(false, false, 1)
  }

  /** The library's `automaticallyDeleteStoreOnMismatch`: private, initialised true, never changed. */
  const LibraryAutoDelete: bool := true

  /**
   The library driver's `persistentStoreCoordinator`: only a failed retry
   clears the coordinator; without auto-delete a failed add keeps a
   coordinator that has no store.
   */
  function LibraryCoordinator(autoDelete: bool, adds: AddStoreOutcomes, id: CoordinatorId): (r: StoreSetup)
    ensures r.coordinator.None? <==> autoDelete && !adds.firstAddSucceeds && !adds.retryAddSucceeds
    ensures r.coordinator.Some? ==> r.coordinator.value == id
    ensures r.storeAttached <==> adds.firstAddSucceeds || (autoDelete && adds.retryAddSucceeds)
    ensures r.storeFileRemoved <==> autoDelete && !adds.firstAddSucceeds
    ensures r.addAttempts <= 2
  {
    var w := AddWithRetry(autoDelete, adds);
    StoreSetup(if w.attempts == 2 && !w.attached then None else Some(id), w.attached, w.fileRemoved, w.attempts)
  }

  /** With the library's own setting, the coordinator is nil iff the retry also fails, and otherwise has a store. */
  lemma LibraryCoordinatorRetriesOnce(adds: AddStoreOutcomes, id: CoordinatorId)
    ensures var r := LibraryCoordinator(LibraryAutoDelete, adds, id);
      && (r.coordinator.None? <==> !adds.firstAddSucceeds && !adds.retryAddSucceeds)
      && (r.coordinator.Some? ==> r.storeAttached)
      && (r.addAttempts == 2 <==> !adds.firstAddSucceeds)
  {
  }

  /**
   Without auto-delete the two variants part ways: the library always hands
   out its coordinator, attached or not, after a single add, while the
   example's is nil exactly when that add fails.
   */
  lemma LibraryCoordinatorWithoutAutoDelete(adds: AddStoreOutcomes, id: CoordinatorId)
    ensures var r := LibraryCoordinator(false, adds, id);
      && r.coordinator == Some(id) && (r.storeAttached <==> adds.firstAddSucceeds)
      && !r.storeFileRemoved && r.addAttempts == 1
    ensures var a := AppCoordinator(true, false, adds, id);
      (a.coordinator.Some? <==> adds.firstAddSucceeds) && a.addAttempts == 1
  {
  }

  /**
   The example stack's `lazyPersistentStoreCoordinator`: nil without a
   model; nil when the first add fails and either auto-delete is off or the
   retry fails too.
   */
  function AppCoordinator(modelPresent: bool, autoDelete: bool, adds: AddStoreOutcomes, id: CoordinatorId): (r: StoreSetup)
    ensures r.coordinator.Some? <==> modelPresent && (adds.firstAddSucceeds || (autoDelete && adds.retryAddSucceeds))
    ensures r.coordinator.Some? ==> r.coordinator.value == id && r.storeAttached
    ensures !modelPresent ==> r.addAttempts == 0 && !r.storeFileRemoved
    ensures modelPresent ==> (r.storeFileRemoved <==> autoDelete && !adds.firstAddSucceeds)
    ensures r.addAttempts <= 2
  {
    if !modelPresent then StoreSetup(None, false, false, 0)
    else
      var w := AddWithRetry(autoDelete, adds);
      StoreSetup(if w.attached then Some(id) else None, w.attached, w.fileRemoved, w.attempts)
  }

  /** The two variants agree whenever auto-delete is on and a model exists. */
  lemma VariantsAgreeWithAutoDelete(adds: AddStoreOutcomes, id: CoordinatorId)
    ensures AppCoordinator(true, true, adds, id) == LibraryCoordinator(true, adds, id)
  {
  }
}

=== FILE: core_data.dfy ===
/**
 The parts of CoreData the wrapper talks to, reduced to plain values and
 uninterpreted oracles.  Nothing in this module belongs to the wrapper itself:
 it is the vocabulary the other modules are written in.
 */
module CoreData {
  import opened Wrappers

  type ContextId = nat
  type CoordinatorId = nat
  type ObjectId = nat

  /** `NSManagedObjectContextConcurrencyType`. */
  datatype ConcurrencyType = Confinement | PrivateQueue | MainQueue

  /** The merge policies the wrapper uses: the CoreData default and `NSOverwriteMergePolicy`. */
  datatype MergePolicy = ErrorMergePolicy | OverwriteMergePolicy

  /**
   A managed object context.  The parent is held by value, so every parent
   chain is finite and ends at a context with no parent.
   */
  datatype ManagedContext = ManagedContext(
    id: ContextId,
    concurrency: ConcurrencyType,
    parent: Option<ManagedContext>,
    coordinator: Option<CoordinatorId>,
    mergePolicy: MergePolicy)

  /** A managed object and the context it is registered in, if any. */
  datatype ManagedObject = ManagedObject(id: ObjectId, context: Option<ManagedContext>)

  /** Fetch predicates: the `attribute == value` form the entity helpers build, or any other. */
  datatype Predicate = AttributeEquals(attribute: string, value: int) | OtherPredicate(id: nat)

  type SortDescriptor = nat

  /** An `NSFetchRequest`; offset and limit 0 mean "no offset" and "no limit". */
  datatype FetchRequest = FetchRequest(
    entityName: string,
    fetchPredicate: Option<Predicate>,
    sortDescriptors: Option<seq<SortDescriptor>>,
    fetchOffset: int,
    fetchLimit: int)

  /** `NSFetchRequest(entityName:)`: no predicate, no sort, default offset and limit. */
  function NewFetchRequest(entityName: string): FetchRequest {
    FetchRequest(entityName, None, None, 0, 0)
  }

  /** The errors CoreData reports through an `NSErrorPointer`. */
  datatype CoreDataError = SaveFailed(context: ContextId) | PermanentIdFailed(context: ContextId)

  /**
   What the CoreData engine answers, fixed for one step of the model:
   whether a context has unsaved changes, whether its `save` succeeds,
   what a fetch or a count returns, and which object an insert creates.
   */
  datatype Engine = Engine(
    hasChanges: ContextId -> bool,
    saveSucceeds: ContextId -> bool,
    fetch: (ContextId, FetchRequest) -> Option<seq<ManagedObject>>,
    count: (ContextId, FetchRequest) -> int,
    insert: (ContextId, string) -> ObjectId)

  /** The number of contexts above `c` in its parent chain. */
  function Depth(c: ManagedContext): nat
    decreases c
  {
    match c.parent
    case None => 0
    case Some(p) => 1 + Depth(p)
  }

  /** The parent chain of `c`, nearest parent first, root last; `c` itself is not in it. */
  function Ancestors(c: ManagedContext): (chain: seq<ManagedContext>)
    ensures |chain| == Depth(c)
    ensures forall i :: 0 <= i < |chain| ==> Depth(chain[i]) == Depth(c) - 1 - i
    decreases c
  {
    match c.parent
    case None => []
    case Some(p) => [p] + Ancestors(p)
  }

  /** A context never appears among its own ancestors. */
  lemma NotOwnAncestor(c: ManagedContext)
    ensures forall a :: a in Ancestors(c) ==> a != c
  {
    forall a | a in Ancestors(c)
      ensures a != c
    {
      var i :| 0 <= i < |Ancestors(c)| && Ancestors(c)[i] == a;
      assert Depth(a) < Depth(c);
    }
  }
}

=== FILE: driver.dfy ===
/**
 The decision logic of the CoreData driver (Source/CoreData/Driver.swift):
 fetch parameters, save and its parent cascade, deletes, the background
 save operation and its callbacks, and which context a caller is given.
 CoreData's answers come from an `Engine`; the timing of `performBlock`
 and of main-queue dispatches is not modelled, only their order.
 */
module Driver {
  import opened Wrappers
  import opened CoreData
  import opened OperationQueues

  // ----- create, read, count -----

  /** `create(entityName:context:)`: inserts into the given context, nil without one. */
  function Create(entityName: string, context: Option<ManagedContext>, e: Engine): (r: Option<ManagedObject>)
    ensures r.Some? <==> context.Some?
    ensures r.Some? ==> r.value.context == context
    ensures r.Some? ==> r.value.id == e.insert(context.value.id, entityName)
  {
    match context
    case None => None
    case Some(c) => Some(ManagedObject(e.insert(c.id, entityName), context))
  }

  predicate Positive(n: Option<int>) {
    n.Some? && n.value > 0
  }

  /** The fetch request `read` builds: offset and limit are copied only when strictly positive. */
  function ApplyFetchParameters(
    entityName: string, pred: Option<Predicate>, sortDescriptors: Option<seq<SortDescriptor>>,
    offset: Option<int>, limit: Option<int>): (r: FetchRequest)
    ensures r.entityName == entityName && r.fetchPredicate == pred && r.sortDescriptors == sortDescriptors
    ensures Positive(offset) ==> r.fetchOffset == offset.value
    ensures !Positive(offset) ==> r.fetchOffset == NewFetchRequest(entityName).fetchOffset
    ensures Positive(limit) ==> r.fetchLimit == limit.value
    ensures !Positive(limit) ==> r.fetchLimit == NewFetchRequest(entityName).fetchLimit
  {
    var request := NewFetchRequest(entityName);
    var request := if pred.Some? then request.(fetchPredicate := pred) else request;
    var request := if sortDescriptors.Some? then request.(sortDescriptors := sortDescriptors) else request;
    var request := if Positive(offset) then request.(fetchOffset := offset.value) else request;
    if Positive(limit) then request.(fetchLimit := limit.value) else request
  }

  /** Nil, zero and negative offsets and limits all leave the request as if none were given. */
  lemma NonPositiveParametersIgnored(
    entityName: string, pred: Option<Predicate>, sortDescriptors: Option<seq<SortDescriptor>>,
    offset: Option<int>, limit: Option<int>)
    requires !Positive(offset) && !Positive(limit)
    ensures ApplyFetchParameters(entityName, pred, sortDescriptors, offset, limit)
         == ApplyFetchParameters(entityName, pred, sortDescriptors, None, None)
  {
  }

  /** A request carries an offset (a limit) exactly when a positive one was given. */
  lemma OffsetAndLimitSetIffPositive(
    entityName: string, pred: Option<Predicate>, sortDescriptors: Option<seq<SortDescriptor>>,
    offset: Option<int>, limit: Option<int>)
    ensures ApplyFetchParameters(entityName, pred, sortDescriptors, offset, limit).fetchOffset != 0 <==> Positive(offset)
    ensures ApplyFetchParameters(entityName, pred, sortDescriptors, offset, limit).fetchLimit != 0 <==> Positive(limit)
  {
  }

  /** `read(entityName:pred:sortDescriptors:offset:limit:context:error:)`. */
  function Read(
    entityName: string, pred: Option<Predicate>, sortDescriptors: Option<seq<SortDescriptor>>,
    offset: Option<int>, limit: Option<int>, context: Option<ManagedContext>, e: Engine): (r: Option<seq<ManagedObject>>)
    ensures context.None? ==> r.None?
    ensures context.Some? ==>
      r == e.fetch(context.value.id, ApplyFetchParameters(entityName, pred, sortDescriptors, offset, limit))
  {
    match context
    case None => None
    case Some(c) => e.fetch(c.id, ApplyFetchParameters(entityName, pred, sortDescriptors, offset, limit))
  }

  /** `read(fetchRequest:context:error:)`: an explicit context wins, else the caller's routed context. */
  function ReadRequest(request: FetchRequest, context: Option<ManagedContext>, routed: Option<ManagedContext>, e: Engine)
    : (r: Option<seq<ManagedObject>>)
    ensures context.Some? ==> r == e.fetch(context.value.id, request)
    ensures context.None? && routed.Some? ==> r == e.fetch(routed.value.id, request)
    ensures context.None? && routed.None? ==> r.None?
  {
    match OrElse(context, routed)
    case None => None
    case Some(c) => e.fetch(c.id, request)
  }

  /** `count(entityName:pred:context:error:)`: 0 without a context. */
  function Count(entityName: string, pred: Option<Predicate>, context: Option<ManagedContext>, e: Engine): (r: int)
    ensures context.None? ==> r == 0
    ensures context.Some? ==> r == e.count(context.value.id, NewFetchRequest(entityName).(fetchPredicate := pred))
  {
    match context
    case None => 0
    case Some(c) =>
      var request := NewFetchRequest(entityName);
      e.count(c.id, if pred.Some? then request.(fetchPredicate := pred) else request)
  }

  /** `count` counts what `read` without sort, offset or limit would fetch; without a context both give nothing. */
  lemma CountAgreesWithRead(entityName: string, pred: Option<Predicate>, context: Option<ManagedContext>, e: Engine)
    ensures context.Some? ==>
      Count(entityName, pred, context, e) == e.count(context.value.id, ApplyFetchParameters(entityName, pred, None, None, None))
      && Read(entityName, pred, None, None, None, context, e) == e.fetch(context.value.id, ApplyFetchParameters(entityName, pred, None, None, None))
    ensures context.None? ==> Count(entityName, pred, context, e) == 0 && Read(entityName, pred, None, None, None, context, e).None?
  {
  }

  // ----- save and the parent cascade -----

  /** One `save` of a context in the cascade, and whether it succeeded. */
  datatype SaveAttempt = SaveAttempt(context: ManagedContext, succeeded: bool)

  /**
   `recursiveSave`: saves the parent, and on success that parent's parent,
   and so on; it stops at the first failed save or at the root.
   */
  function RecursiveSave(c: ManagedContext, e: Engine): (trace: seq<SaveAttempt>)
    ensures |trace| <= |Ancestors(c)|
    ensures forall i :: 0 <= i < |trace| ==>
      trace[i].context == Ancestors(c)[i] && trace[i].succeeded == e.saveSucceeds(Ancestors(c)[i].id)
    ensures forall i :: 0 <= i < |trace| - 1 ==> trace[i].succeeded
    ensures trace == [] <==> c.parent.None?
    ensures |trace| < |Ancestors(c)| ==> !trace[|trace| - 1].succeeded
    decreases c
  {
    match c.parent
    case None => []
    case Some(p) =>
      if e.saveSucceeds(p.id) then [SaveAttempt(p, true)] + RecursiveSave(p, e)
      else [SaveAttempt(p, false)]
  }

  /** The cascade only ever saves ancestors, never the context it started from. */
  lemma CascadeNeverSavesStart(c: ManagedContext, e: Engine)
    ensures forall a :: a in RecursiveSave(c, e) ==> a.context in Ancestors(c) && a.context != c
  {
    NotOwnAncestor(c);
    var trace := RecursiveSave(c, e);
    forall a | a in trace
      ensures a.context in Ancestors(c)
    {
      var i :| 0 <= i < |trace| && trace[i] == a;
      assert a.context == Ancestors(c)[i];
    }
  }

  /** When every ancestor's save succeeds, the cascade reaches the root. */
  lemma CascadeReachesRootWhenAllSucceed(c: ManagedContext, e: Engine)
    requires forall a :: a in Ancestors(c) ==> e.saveSucceeds(a.id)
    ensures |RecursiveSave(c, e)| == |Ancestors(c)|
    ensures forall a :: a in RecursiveSave(c, e) ==> a.succeeded
  {
  }

  /** The `NSErrorPointer` a caller passes: none, or one holding the caller's current error. */
  datatype ErrorPointer = NilPointer | PointerTo(current: Option<CoreDataError>)

  function PresetError(p: ErrorPointer): Option<CoreDataError> {
    match p
    case NilPointer => None
    case PointerTo(current) => current
  }

  /**
   What `save(context:error:)` reports, whether it saved the context itself,
   the error left behind the pointer, and the parent cascade it started.
   */
  datatype SaveResult = SaveResult(
    succeeded: bool, localSaveAttempted: bool, error: Option<CoreDataError>, cascade: seq<SaveAttempt>)

  /**
   `save(context:error:)`.  A missing pointer is replaced by a fresh one.
   The result is read from the error pointer after the local save.  The
   parent saves are dispatched with `performBlock` and may race with that
   read; the model assumes they run after it, so cascade failures do not
   change the result.
   */
  function Save(context: Option<ManagedContext>, errorPointer: ErrorPointer, e: Engine): (r: SaveResult)
    ensures r.succeeded <==>
      context.Some? && (!e.hasChanges(context.value.id) || (e.saveSucceeds(context.value.id) && PresetError(errorPointer).None?))
    ensures r.localSaveAttempted <==> context.Some? && e.hasChanges(context.value.id)
    ensures r.cascade != [] ==> r.localSaveAttempted && e.saveSucceeds(context.value.id)
    ensures r.localSaveAttempted && e.saveSucceeds(context.value.id) ==> r.cascade == RecursiveSave(context.value, e)
    ensures r.localSaveAttempted && !e.saveSucceeds(context.value.id) ==> r.error == Some(SaveFailed(context.value.id))
    ensures !(r.localSaveAttempted && !e.saveSucceeds(context.value.id)) ==> r.error == PresetError(errorPointer)
  {
    var preset := PresetError(errorPointer);
    match context
    case None => SaveResult(false, false, preset, [])
    case Some(c) =>
      if !e.hasChanges(c.id) then SaveResult(true, false, preset, [])
      else if e.saveSucceeds(c.id) then SaveResult(preset.None?, true, preset, RecursiveSave(c, e))
      else SaveResult(false, true, Some(SaveFailed(c.id)), [])
  }

  /** Passing no error pointer behaves exactly like passing a fresh one. */
  lemma SaveWithoutPointerIsFreshPointer(context: Option<ManagedContext>, e: Engine)
    ensures Save(context, NilPointer, e) == Save(context, PointerTo(None), e)
  {
  }

  /** With a fresh pointer, save succeeds iff there is a context that has nothing to save or saves. */
  lemma SaveSucceedsIffLocalSaveSucceeds(context: Option<ManagedContext>, e: Engine)
    ensures Save(context, PointerTo(None), e).succeeded <==>
      context.Some? && (e.hasChanges(context.value.id) ==> e.saveSucceeds(context.value.id))
  {
  }

  /**
   A pointer that already holds an error makes `save` report failure even
   though the context was saved and the cascade started.
   */
  lemma PresetErrorReportsFailure(c: ManagedContext, err: CoreDataError, e: Engine)
    requires e.hasChanges(c.id) && e.saveSucceeds(c.id)
    ensures !Save(Some(c), PointerTo(Some(err)), e).succeeded
    ensures Save(Some(c), PointerTo(Some(err)), e).cascade == RecursiveSave(c, e)
  {
  }

  // ----- delete -----

  /** A `deleteObject` call: which context deleted which obj. */
  datatype Deletion = Deletion(context: ContextId, objectId: ObjectId)

  /** `delete(object:)`: deletes the object from its own context; nil objects and detached objects are left alone. */
  function DeleteObject(obj: Option<ManagedObject>): (r: seq<Deletion>)
    ensures |r| <= 1
    ensures |r| == 1 <==> obj.Some? && obj.value.context.Some?
    ensures |r| == 1 ==> r[0] == Deletion(obj.value.context.value.id, obj.value.id)
  {
    match obj
    case None => []
    case Some(o) =>
      match o.context
      case None => []
      case Some(c) => [Deletion(c.id, o.id)]
  }

  /** The deletions `delete(object:)` performs for each of `objects`, in order. */
  function DeletionsOf(objects: seq<ManagedObject>): (r: seq<Deletion>)
    ensures |r| <= |objects|
    decreases |objects|
  {
    if objects == [] then []
    else DeletionsOf(objects[..|objects| - 1]) + DeleteObject(Some(objects[|objects| - 1]))
  }

  /** Exactly the attached objects are deleted, each from its own context. */
  lemma {:induction false} DeletionsOfExactly(objects: seq<ManagedObject>)
    ensures |DeletionsOf(objects)| <= |objects|
    ensures forall d :: d in DeletionsOf(objects) <==>
      exists i :: 0 <= i < |objects| && objects[i].context.Some? && d == Deletion(objects[i].context.value.id, objects[i].id)
    decreases |objects|
  {
    if objects != [] {
      var init := objects[..|objects| - 1];
      DeletionsOfExactly(init);
      forall d
        ensures d in DeletionsOf(objects) <==>
          exists i :: 0 <= i < |objects| && objects[i].context.Some? && d == Deletion(objects[i].context.value.id, objects[i].id)
      {
        if d in DeletionsOf(init) {
          var i :| 0 <= i < |init| && init[i].context.Some? && d == Deletion(init[i].context.value.id, init[i].id);
          assert objects[i] == init[i];
        }
        if exists i :: 0 <= i < |objects| && objects[i].context.Some? && d == Deletion(objects[i].context.value.id, objects[i].id) {
          var i :| 0 <= i < |objects| && objects[i].context.Some? && d == Deletion(objects[i].context.value.id, objects[i].id);
          if i < |init| {
            assert init[i] == objects[i];
          }
        }
      }
    }
  }

  /** How many of `objects` have a context. */
  function AttachedCount(objects: seq<ManagedObject>): (n: nat)
    ensures n <= |objects|
    decreases |objects|
  {
    if objects == [] then 0
    else AttachedCount(objects[..|objects| - 1]) + (if objects[|objects| - 1].context.Some? then 1 else 0)
  }

  /**
   The deletions come in the objects' order, one per attached object: the
   attached object at index i makes the deletion that follows those of the
   attached objects before it.
   */
  lemma {:induction false} DeletionsOfInOrder(objects: seq<ManagedObject>)
    ensures |DeletionsOf(objects)| == AttachedCount(objects)
    ensures forall i :: 0 <= i < |objects| && objects[i].context.Some? ==>
      AttachedCount(objects[..i]) < |DeletionsOf(objects)|
      && DeletionsOf(objects)[AttachedCount(objects[..i])] == Deletion(objects[i].context.value.id, objects[i].id)
    decreases |objects|
  {
    if objects != [] {
      var n := |objects| - 1;
      var init := objects[..n];
      DeletionsOfInOrder(init);
      assert objects[..n] == init;
      forall i | 0 <= i < |objects| && objects[i].context.Some?
        ensures AttachedCount(objects[..i]) < |DeletionsOf(objects)|
        ensures DeletionsOf(objects)[AttachedCount(objects[..i])] == Deletion(objects[i].context.value.id, objects[i].id)
      {
        if i < n {
          assert objects[..i] == init[..i];
          assert init[i] == objects[i];
        }
      }
    }
  }

  /** When every object is attached, the i-th deletion is the i-th object's. */
  lemma DeletionsOfAllAttached(objects: seq<ManagedObject>)
    requires forall i :: 0 <= i < |objects| ==> objects[i].context.Some?
    ensures |DeletionsOf(objects)| == |objects|
    ensures forall i :: 0 <= i < |objects| ==>
      DeletionsOf(objects)[i] == Deletion(objects[i].context.value.id, objects[i].id)
  {
    DeletionsOfInOrder(objects);
    forall k | 0 <= k <= |objects|
      ensures AttachedCount(objects[..k]) == k
    {
      AllAttachedCount(objects[..k]);
    }
    assert objects[..|objects|] == objects;
  }

  lemma {:induction false} AllAttachedCount(objects: seq<ManagedObject>)
    requires forall i :: 0 <= i < |objects| ==> objects[i].context.Some?
    ensures AttachedCount(objects) == |objects|
    decreases |objects|
  {
    if objects != [] {
      AllAttachedCount(objects[..|objects| - 1]);
    }
  }

  /**
   `delete(entityName:pred:context:error:)`: reads the matching objects
   and deletes each through `delete(object:)`; succeeds iff the read did.
   */
  method DeleteEntities(entityName: string, pred: Option<Predicate>, context: Option<ManagedContext>, e: Engine)
    returns (ok: bool, deletions: seq<Deletion>)
    ensures ok <==> Read(entityName, pred, None, Some(0), Some(0), context, e).Some?
    ensures !ok ==> deletions == []
    ensures ok ==> deletions == DeletionsOf(Read(entityName, pred, None, Some(0), Some(0), context, e).value)
  {
    var read := Read(entityName, pred, None, Some(0), Some(0), context, e);
    deletions := [];
    if read.None? {
      return false, [];
    }
    var objects := read.value;
    var i := 0;
    while i < |objects|
      invariant 0 <= i <= |objects|
      invariant deletions == DeletionsOf(objects[..i])
    {
      assert objects[..i + 1][..i] == objects[..i];
      deletions := deletions + DeleteObject(Some(objects[i]));
      i := i + 1;
    }
    assert objects[..|objects|] == objects;
    ok := true;
  }

  // ----- background save operations -----

  /** The outcome of `obtainPermanentIDsForObjects`: its return value and the error it left. */
  datatype PermanentIds = PermanentIds(succeeded: bool, error: Option<CoreDataError>)

  /** One call of the `save` closure a block receives, with the engine as it stands at that moment. */
  datatype SaveCall = SaveCall(permanentIds: PermanentIds, engine: Engine)

  /** The callback a `save` call routes to the main queue. */
  datatype Callback = SaveSuccess | SaveFailure(error: Option<CoreDataError>)

  /** What one `save` call did: the driver `save` it ran, if it got that far, and the callback it routed. */
  datatype SaveCallEffect = SaveCallEffect(save: Option<SaveResult>, callback: Callback)

  /**
   The `save` closure of `saveWithBlockWaitSave`: it runs the driver's
   `save(context:error:)` on the operation's context only when the
   permanent-ID step succeeds without an error; success then needs that
   save to succeed.
   */
  function SaveCallOutcome(local: ManagedContext, call: SaveCall): (r: SaveCallEffect)
    ensures r.save.Some? <==> call.permanentIds.succeeded && call.permanentIds.error.None?
    ensures r.save.Some? ==>
      && (r.save.value.localSaveAttempted <==> call.engine.hasChanges(local.id))
      && (r.save.value.localSaveAttempted && call.engine.saveSucceeds(local.id) ==>
            r.save.value.cascade == RecursiveSave(local, call.engine))
      && (r.save.value.cascade != [] ==> local.parent.Some? && r.save.value.cascade[0].context == local.parent.value)
    ensures r.callback.SaveSuccess? <==>
      call.permanentIds.succeeded && call.permanentIds.error.None?
      && (call.engine.hasChanges(local.id) ==> call.engine.saveSucceeds(local.id))
    ensures r.save.None? ==> r.callback == SaveFailure(call.permanentIds.error)
    ensures r.save.Some? && r.callback.SaveFailure? ==> r.callback.error == Some(SaveFailed(local.id))
  {
    if call.permanentIds.succeeded && call.permanentIds.error.None? then
      var saved := Save(Some(local), PointerTo(None), call.engine);
      SaveCallEffect(Some(saved), if saved.succeeded then SaveSuccess else SaveFailure(saved.error))
    else SaveCallEffect(None, SaveFailure(call.permanentIds.error))
  }

  /**
   Running an operation's block: each `save` call it makes routes exactly
   one callback, in order, and the saves it ran are reported alongside.
   */
  method RunSaveBlock(op: DriverOperation, calls: seq<SaveCall>) returns (callbacks: seq<Callback>, saves: seq<Option<SaveResult>>)
    ensures |callbacks| == |calls| && |saves| == |calls|
    ensures forall i :: 0 <= i < |calls| ==>
      (callbacks[i].SaveSuccess? <==>
        calls[i].permanentIds.succeeded && calls[i].permanentIds.error.None?
        && (calls[i].engine.hasChanges(op.context.id) ==> calls[i].engine.saveSucceeds(op.context.id)))
    ensures forall i :: 0 <= i < |calls| ==>
      SaveCallEffect(saves[i], callbacks[i]) == SaveCallOutcome(op.context, calls[i])
  {
    callbacks := [];
    saves := [];
    var i := 0;
    while i < |calls|
      invariant 0 <= i <= |calls|
      invariant |callbacks| == i && |saves| == i
      invariant forall j :: 0 <= j < i ==> SaveCallEffect(saves[j], callbacks[j]) == SaveCallOutcome(op.context, calls[j])
    {
      var effect := SaveCallOutcome(op.context, calls[i]);
      callbacks := callbacks + [effect.callback];
      saves := saves + [effect.save];
      i := i + 1;
    }
  }

  /** The shared queue after a submission, and the operation submitted, if any. */
  datatype Enqueued = Enqueued(statics: DriverStatics, operation: Option<DriverOperation>)

  /**
   Building the operation under the default context and handing it to the
   shared queue: `addOperation` unless the caller waits, in which case the
   inherited `addOperations(_:waitUntilFinished:)` is used.
   */
  function Submit(work: Work, defaultContext: ManagedContext, statics: DriverStatics, opId: nat, contextId: ContextId, wait: bool)
    : (r: Enqueued)
    ensures r.operation.Some? && r.operation.value.work == work
    ensures r.operation.value.context.parent == Some(defaultContext)
    ensures r.operation.value.context.mergePolicy == OverwriteMergePolicy
    ensures r.statics.queue.Some?
    ensures r.statics.queue.value.operations == AccessQueue(statics).queue.operations + [r.operation.value]
    ensures r.operation.value.id == opId && !r.operation.value.executing
    ensures var before := AccessQueue(statics).queue.operations;
      r.operation.value.dependencies ==
        (if !wait && before != [] then {before[|before| - 1].id} else {})
  {
    var access := AccessQueue(statics);
    var op := NewOperation(opId, contextId, defaultContext, work);
    var queue := if wait then AddOperationsWaiting(access.queue, op) else AddOperation(access.queue, op);
    Enqueued(DriverStatics(Some(queue)), Some(queue.operations[|queue.operations| - 1]))
  }

  /** `saveWithBlockWaitSave(block:saveSuccess:saveFailure:waitUntilFinished:)`: nothing is queued without a block or a default context. */
  function SaveWithBlockWaitSave(hasBlock: bool, defaultContext: Option<ManagedContext>, statics: DriverStatics,
                                 opId: nat, contextId: ContextId, wait: bool): (r: Enqueued)
    ensures !hasBlock || defaultContext.None? ==> r == Enqueued(statics, None)
    ensures hasBlock && defaultContext.Some? ==>
      r.operation.Some? && r.operation.value.work == SaveWork
      && r.operation.value.context.parent == defaultContext
      && r.statics.queue.Some?
      && r.statics.queue.value.operations == AccessQueue(statics).queue.operations + [r.operation.value]
    ensures hasBlock && defaultContext.Some? ==>
      var before := AccessQueue(statics).queue.operations;
      r.operation.Some? && r.operation.value.dependencies ==
        (if !wait && before != [] then {before[|before| - 1].id} else {})
  {
    if hasBlock && defaultContext.Some? then Submit(SaveWork, defaultContext.value, statics, opId, contextId, wait)
    else Enqueued(statics, None)
  }

  /** `saveWithBlock(block:...)`: wraps even a nil block, so only the default context decides. */
  function SaveWithBlock(defaultContext: Option<ManagedContext>, statics: DriverStatics,
                         opId: nat, contextId: ContextId, wait: bool): (r: Enqueued)
    ensures r.operation.Some? <==> defaultContext.Some?
    ensures defaultContext.None? ==> r.statics == statics
    ensures defaultContext.Some? ==>
      r.operation.Some? && r.operation.value.work == SaveWork
      && r.operation.value.context.parent == defaultContext
      && r.statics.queue.Some?
      && r.statics.queue.value.operations == AccessQueue(statics).queue.operations + [r.operation.value]
    ensures defaultContext.Some? ==>
      var before := AccessQueue(statics).queue.operations;
      r.operation.Some? && r.operation.value.dependencies ==
        (if !wait && before != [] then {before[|before| - 1].id} else {})
  {
    SaveWithBlockWaitSave(true, defaultContext, statics, opId, contextId, wait)
  }

  /** `performBlock(block:completion:waitUntilFinished:)`: same submission rule, plain work. */
  function PerformBlock(hasBlock: bool, hasCompletion: bool, defaultContext: Option<ManagedContext>, statics: DriverStatics,
                        opId: nat, contextId: ContextId, wait: bool): (r: Enqueued)
    ensures !hasBlock || defaultContext.None? ==> r == Enqueued(statics, None)
    ensures hasBlock && defaultContext.Some? ==>
      r.operation.Some? && r.operation.value.work == PerformWork(hasCompletion)
      && r.operation.value.context.parent == defaultContext
      && r.statics.queue.Some?
      && r.statics.queue.value.operations == AccessQueue(statics).queue.operations + [r.operation.value]
    ensures hasBlock && defaultContext.Some? ==>
      var before := AccessQueue(statics).queue.operations;
      r.operation.Some? && r.operation.value.dependencies ==
        (if !wait && before != [] then {before[|before| - 1].id} else {})
  {
    if hasBlock && defaultContext.Some? then
      Submit(PerformWork(hasCompletion), defaultContext.value, statics, opId, contextId, wait)
    else Enqueued(statics, None)
  }

  /** A non-waiting submission keeps the shared queue chained. */
  lemma SubmitKeepsChain(work: Work, defaultContext: ManagedContext, statics: DriverStatics, opId: nat, contextId: ContextId)
    requires statics.queue.Some? ==> Chained(statics.queue.value)
    ensures Chained(Submit(work, defaultContext, statics, opId, contextId, false).statics.queue.value)
  {
    AddOperationKeepsChain(AccessQueue(statics).queue, NewOperation(opId, contextId, defaultContext, work));
  }

  /** Non-waiting performed blocks keep the shared queue chained too, so they run after the saves queued before them. */
  lemma PerformBlockKeepsChain(hasBlock: bool, hasCompletion: bool, defaultContext: Option<ManagedContext>,
                               statics: DriverStatics, opId: nat, contextId: ContextId)
    requires statics.queue.Some? ==> Chained(statics.queue.value)
    ensures var r := PerformBlock(hasBlock, hasCompletion, defaultContext, statics, opId, contextId, false);
      r.statics.queue.Some? ==> Chained(r.statics.queue.value)
  {
    if hasBlock && defaultContext.Some? {
      SubmitKeepsChain(PerformWork(hasCompletion), defaultContext.value, statics, opId, contextId);
    }
  }

  /** Non-waiting submissions keep the shared queue chained, so background saves run one after another. */
  lemma NonWaitingSubmitKeepsChain(hasBlock: bool, defaultContext: Option<ManagedContext>, statics: DriverStatics,
                                   opId: nat, contextId: ContextId)
    requires statics.queue.Some? ==> Chained(statics.queue.value)
    ensures var r := SaveWithBlockWaitSave(hasBlock, defaultContext, statics, opId, contextId, false);
      r.statics.queue.Some? ==> Chained(r.statics.queue.value)
  {
    if hasBlock && defaultContext.Some? {
      SubmitKeepsChain(SaveWork, defaultContext.value, statics, opId, contextId);
    }
  }

  /**
   A successful background save of an operation built by `Submit` hands its
   work on to the default context: the cascade starts there, and when the
   default context's own save succeeds it goes on to that context's parent,
   the writer.
   */
  lemma BackgroundSaveCascadesIntoDefault(work: Work, defaultContext: ManagedContext, statics: DriverStatics,
                                          opId: nat, contextId: ContextId, wait: bool, call: SaveCall)
    ensures var op := Submit(work, defaultContext, statics, opId, contextId, wait).operation.value;
      var r := SaveCallOutcome(op.context, call);
      r.callback.SaveSuccess? && call.engine.hasChanges(op.context.id) ==>
        && r.save.Some? && r.save.value.cascade == RecursiveSave(op.context, call.engine)
        && |r.save.value.cascade| >= 1
        && r.save.value.cascade[0] == SaveAttempt(defaultContext, call.engine.saveSucceeds(defaultContext.id))
        && (call.engine.saveSucceeds(defaultContext.id) && defaultContext.parent.Some? ==>
              |r.save.value.cascade| >= 2 && r.save.value.cascade[1].context == defaultContext.parent.value)
  {
  }

  // ----- which context a caller gets -----

  type ThreadId = nat

  /** The `NSOperationQueue.currentQueue()` a caller runs on. */
  datatype CurrentQueue = NoCurrentQueue | MainOperationQueue | DriverQueue | OtherQueue

  datatype Caller = Caller(queue: CurrentQueue, onMainThread: bool, thread: ThreadId)

  /** The context handed out, and the per-thread contexts afterwards. */
  datatype Routed = Routed(context: Option<ManagedContext>, threadContexts: map<ThreadId, ManagedContext>)

  /** The context created for a background thread: private, under the default context, overwrite policy. */
  function ThreadContext(id: ContextId, defaultContext: Option<ManagedContext>): (c: ManagedContext)
    ensures c.id == id && c.parent == defaultContext && c.coordinator.None?
    ensures c.concurrency == PrivateQueue && c.mergePolicy == OverwriteMergePolicy
    ensures Ancestors(c) == (if defaultContext.Some? then [defaultContext.value] + Ancestors(defaultContext.value) else [])
  {
    ManagedContext(id, PrivateQueue, defaultContext, None, OverwriteMergePolicy)
  }

  /**
   `managedObjectContext()`: the main queue and the main thread get the
   default context, a driver queue its executing operation's context, any
   other thread one context of its own, created on first use.
   */
  function ManagedObjectContextFor(caller: Caller, defaultContext: Option<ManagedContext>, statics: DriverStatics,
                                   threads: map<ThreadId, ManagedContext>, freshId: ContextId): (r: Routed)
    ensures caller.queue == MainOperationQueue ==> r == Routed(defaultContext, threads)
    ensures caller.queue == DriverQueue ==> r.threadContexts == threads
    ensures caller.queue == DriverQueue && statics.queue.Some? && CurrentExecutingOperation(statics.queue.value).Some? ==>
      r.context == Some(CurrentExecutingOperation(statics.queue.value).value.context)
    ensures caller.queue == DriverQueue && (statics.queue.None? || CurrentExecutingOperation(statics.queue.value).None?) ==>
      r.context.None?
    ensures caller.queue in {NoCurrentQueue, OtherQueue} && caller.onMainThread ==> r == Routed(defaultContext, threads)
    ensures caller.queue in {NoCurrentQueue, OtherQueue} && !caller.onMainThread && caller.thread in threads ==>
      r == Routed(Some(threads[caller.thread]), threads)
    ensures caller.queue in {NoCurrentQueue, OtherQueue} && !caller.onMainThread && caller.thread !in threads ==>
      r.context.Some? && r.context.value.parent == defaultContext
      && r.context.value.mergePolicy == OverwriteMergePolicy && r.context.value.concurrency == PrivateQueue
      && r.threadContexts == threads[caller.thread := r.context.value]
  {
    if caller.queue == MainOperationQueue then Routed(defaultContext, threads)
    else if caller.queue == DriverQueue then
      var current := if statics.queue.Some? then CurrentExecutingOperation(statics.queue.value) else None;
      Routed(if current.Some? then Some(current.value.context) else None, threads)
    else if caller.onMainThread then Routed(defaultContext, threads)
    else if caller.thread in threads then Routed(Some(threads[caller.thread]), threads)
    else
      var c := ThreadContext(freshId, defaultContext);
      Routed(Some(c), threads[caller.thread := c])
  }

  /** A caller asking again gets the same context, whatever fresh identity would be available. */
  lemma RoutingIsStable(caller: Caller, defaultContext: Option<ManagedContext>, statics: DriverStatics,
                        threads: map<ThreadId, ManagedContext>, freshId: ContextId, laterFreshId: ContextId)
    ensures var first := ManagedObjectContextFor(caller, defaultContext, statics, threads, freshId);
      ManagedObjectContextFor(caller, defaultContext, statics, first.threadContexts, laterFreshId) == first
  {
  }

  /** Routing never touches another thread's context. */
  lemma RoutingLeavesOtherThreads(caller: Caller, defaultContext: Option<ManagedContext>, statics: DriverStatics,
                                  threads: map<ThreadId, ManagedContext>, freshId: ContextId)
    ensures var r := ManagedObjectContextFor(caller, defaultContext, statics, threads, freshId);
      forall t :: t != caller.thread ==>
        (t in r.threadContexts <==> t in threads) && (t in threads ==> r.threadContexts[t] == threads[t])
  {
  }
}

=== FILE: entity_name.dfy ===
/**
 `entityName()` of the example entity classes: the part of the qualified
 class name (`Module.Event`) after the last `.`.
 */
module EntityNames {

  const Separator: char := '.'

  /** `componentsSeparatedByString(String(sep))`: always at least one component, none containing `sep`. */
  function Split(s: string, sep: char): (parts: seq<string>)
    ensures |parts| >= 1
    ensures forall i :: 0 <= i < |parts| ==> sep !in parts[i]
    decreases |s|
  {
    if s == [] then [""]
    else
      var rest := Split(s[1..], sep);
      if s[0] == sep then [""] + rest
      else [[s[0]] + rest[0]] + rest[1..]
  }

  /** Joining components back with the separator, the inverse of `Split`. */
  function Join(parts: seq<string>, sep: char): string
    requires |parts| >= 1
    decreases |parts|
  {
    if |parts| == 1 then parts[0] else parts[0] + [sep] + Join(parts[1..], sep)
  }

  /** Splitting loses nothing: joining the components restores the name. */
  lemma {:induction false} JoinSplit(s: string, sep: char)
    ensures Join(Split(s, sep), sep) == s
    decreases |s|
  {
    if s != [] {
      var rest := Split(s[1..], sep);
      JoinSplit(s[1..], sep);
      if s[0] == sep {
        assert Split(s, sep)[1..] == rest;
      } else {
        var parts := Split(s, sep);
        if |rest| == 1 {
          assert parts == [[s[0]] + rest[0]];
          assert s == [s[0]] + s[1..];
        } else {
          assert parts[1..] == rest[1..];
          assert Join(rest, sep) == rest[0] + [sep] + Join(rest[1..], sep);
          assert s == [s[0]] + s[1..];
        }
      }
    }
  }

  /**
   The last component of a split is a suffix of the input; with one
   component it is the whole input, with more it is preceded by a separator.
   */
  lemma {:induction false} LastComponentIsSuffix(s: string, sep: char)
    ensures var parts := Split(s, sep); var last := parts[|parts| - 1];
      && |last| <= |s|
      && s[|s| - |last|..] == last
      && (|parts| == 1 ==> last == s)
      && (|parts| > 1 ==> |last| < |s| && s[|s| - |last| - 1] == sep)
      && (sep !in s ==> |parts| == 1)
    decreases |s|
  {
    if s != [] {
      LastComponentIsSuffix(s[1..], sep);
      var rest := Split(s[1..], sep);
      var parts := Split(s, sep);
      if s[0] == sep {
        assert parts[|parts| - 1] == rest[|rest| - 1];
      } else if |rest| == 1 {
        assert parts == [[s[0]] + s[1..]];
        assert s == [s[0]] + s[1..];
      } else {
        assert parts[|parts| - 1] == rest[|rest| - 1];
      }
    }
  }

  /** `entityName()`: the last `.`-separated component of the class name. */
  function EntityName(className: string): (r: string)
    ensures Separator !in r
    ensures |r| <= |className| && className[|className| - |r|..] == r
    ensures |r| < |className| ==> className[|className| - |r| - 1] == Separator
    ensures Separator !in className ==> r == className
  {
    var parts := Split(className, Separator);
    LastComponentIsSuffix(className, Separator);
    parts[|parts| - 1]
  }

  /** The index just past the last separator of `s`, or 0 when there is none. */
  function AfterLastSeparator(s: string): (k: nat)
    ensures k <= |s|
    ensures k > 0 ==> s[k - 1] == Separator
    ensures forall i :: k <= i < |s| ==> s[i] != Separator
    decreases |s|
  {
    if s == [] then 0
    else if s[|s| - 1] == Separator then |s|
    else AfterLastSeparator(s[..|s| - 1])
  }

  /** `entityName()` agrees with the direct definition "everything after the last `.`". */
  lemma EntityNameIsTextAfterLastDot(className: string)
    ensures EntityName(className) == className[AfterLastSeparator(className)..]
  {
  }

  /** For `Module.Event` the entity name is `Event`, whatever the module path. */
  lemma EntityNameOfQualified(modulePath: string, name: string)
    requires Separator !in name
    ensures EntityName(modulePath + [Separator] + name) == name
  {
    var s := modulePath + [Separator] + name;
    var r := EntityName(s);
    assert s[|modulePath|] == Separator;
    assert s[|modulePath| + 1..] == name;
  }
}

=== FILE: event.dfy ===
/**
 The example entity `Event` (Example/Event.swift): its entity name comes from
 the class name, and its helpers delegate to the library's free functions.
 */
module Events {
  import opened Wrappers
  import opened CoreData
  import opened EntityNames
  import ActiveRecord
  import Driver

  /**
   The predicate the finders build: `attribute == value`.  The source's
   value is any object; an `int` stands for it here, since the predicate is
   only ever handed to CoreData, never evaluated by the wrapper.
   */
  function EqualityPredicate(attribute: string, value: int): Predicate {
    AttributeEquals(attribute, value)
  }

  /** `Event.create()`: inserts an object of the entity named by `entityName()` into the default context. */
  function EventCreate(className: string, defaultContext: Option<ManagedContext>, e: Engine): (r: Option<ManagedObject>)
    ensures r.Some? <==> defaultContext.Some?
    ensures r.Some? ==>
      r.value.context == defaultContext && r.value.id == e.insert(defaultContext.value.id, EntityName(className))
  {
    ActiveRecord.Create(EntityName(className), defaultContext, e)
  }

  /** `Event.find(attribute:value:)`: fetches the entity with `attribute == value` through the default context. */
  function EventFind(className: string, attribute: string, value: int, defaultContext: Option<ManagedContext>, e: Engine)
    : (r: Option<seq<ManagedObject>>)
    ensures defaultContext.None? ==> r.None?
    ensures defaultContext.Some? ==> r == e.fetch(defaultContext.value.id,
      FetchRequest(EntityName(className), Some(AttributeEquals(attribute, value)), None, 0, 0))
  {
    ActiveRecord.Find(EntityName(className), Some(EqualityPredicate(attribute, value)), defaultContext, e)
  }

  /** `Event.findFirst(attribute:value:)`: the first object `find` would return, nil if none. */
  function EventFindFirst(className: string, attribute: string, value: int, defaultContext: Option<ManagedContext>, e: Engine)
    : (r: Option<ManagedObject>)
    ensures var all := EventFind(className, attribute, value, defaultContext, e);
      && (r.Some? <==> all.Some? && |all.value| > 0)
      && (r.Some? ==> r.value == all.value[0])
  {
    ActiveRecord.FindFirst(EntityName(className), Some(EqualityPredicate(attribute, value)), defaultContext, e)
  }

  /** `save()`: saves the object's own context; a detached object falls back to the default context. */
  function EventSave(obj: ManagedObject, defaultContext: Option<ManagedContext>, e: Engine): (r: seq<Driver.SaveAttempt>)
    ensures |r| <= 1
    ensures obj.context.Some? ==>
      (|r| == 1 <==> e.hasChanges(obj.context.value.id)) && (|r| == 1 ==> r[0].context == obj.context.value)
    ensures obj.context.None? ==>
      (|r| == 1 <==> defaultContext.Some? && e.hasChanges(defaultContext.value.id))
    ensures obj.context.None? && |r| == 1 ==> r[0].context == defaultContext.value
    ensures |r| == 1 ==> r[0].succeeded == e.saveSucceeds(r[0].context.id)
  {
    ActiveRecord.Save(obj.context, defaultContext, e)
  }

  /** `delete()`: deletes the object itself, through its own context when it has one. */
  function EventDelete(obj: ManagedObject, defaultContext: Option<ManagedContext>): (r: seq<Driver.Deletion>)
    ensures |r| <= 1
    ensures forall d :: d in r ==> d.objectId == obj.id
    ensures obj.context.Some? ==> r == [Driver.Deletion(obj.context.value.id, obj.id)]
    ensures obj.context.None? ==>
      r == (if defaultContext.Some? then [Driver.Deletion(defaultContext.value.id, obj.id)] else [])
  {
    ActiveRecord.Delete(obj, defaultContext)
  }

  // ----- agreement with the CoreData driver -----

  /** For an attached event, `delete()` is the driver's `delete(object:)`, whatever the default context. */
  lemma EventDeleteAgreesWithDriver(obj: ManagedObject, defaultContext: Option<ManagedContext>)
    requires obj.context.Some?
    ensures EventDelete(obj, defaultContext) == Driver.DeleteObject(Some(obj))
  {
  }

  /** `find` is the driver's `read` of the event entity with the equality predicate on the default context. */
  lemma EventFindAgreesWithDriver(className: string, attribute: string, value: int,
                                  defaultContext: Option<ManagedContext>, e: Engine)
    ensures EventFind(className, attribute, value, defaultContext, e)
         == Driver.Read(EntityName(className), Some(EqualityPredicate(attribute, value)), None, None, None, defaultContext, e)
  {
  }

  /**
   `save()` of an attached event saves the same context as the driver's
   `save(context:error:)` would, and reports the same outcome, but starts no cascade.
   */
  lemma EventSaveAgreesWithDriver(obj: ManagedObject, defaultContext: Option<ManagedContext>, e: Engine)
    requires obj.context.Some?
    ensures var saved := Driver.Save(obj.context, Driver.PointerTo(None), e);
      && (|EventSave(obj, defaultContext, e)| == 1 <==> saved.localSaveAttempted)
      && (|EventSave(obj, defaultContext, e)| == 1 ==> EventSave(obj, defaultContext, e)[0].succeeded == saved.succeeded)
  {
  }
}

=== FILE: migration.dfy ===
/**
 Whether the store needs migrating: `Migrator.required`
 (Source/CoreData/CoreDataModel.swift) and `CoreDataStack.isRequiredMigration`
 (Source/CoreData/CoreDataStack.swift), each with its monotone
 "compatibility confirmed" flag.  Reachability and model/store
 compatibility are oracles.
 */
module Migration {
  import opened Wrappers

  /** What the file system and CoreData say about the store at the URL. */
  datatype StoreProbe = StoreProbe(reachable: bool, compatible: bool)

  /** What a `Migrator` reads through its context: the store URL and whether a model exists. */
  datatype MigratorSource = MigratorSource(storeUrl: Option<string>, modelPresent: bool)

  /** A `Migrator`: its (optional) context and its `isConfirmedCompatibility` flag. */
  datatype Migrator = Migrator(source: Option<MigratorSource>, isConfirmedCompatibility: bool)

  /** `Migrator(context:)`: the flag starts false. */
  function NewMigrator(source: Option<MigratorSource>): (m: Migrator)
    ensures m.source == source && !m.isConfirmedCompatibility
  {
    Migrator(source, false)
  }

  /** Whether the migrator can reach a store and a model to compare. */
  predicate CanCompare(m: Migrator, probe: StoreProbe) {
    m.source.Some? && m.source.value.storeUrl.Some? && probe.reachable && m.source.value.modelPresent
  }

  datatype MigratorAnswer = MigratorAnswer(required: bool, migrator: Migrator)

  /**
   `required`: false without a context, a store URL, a reachable store or a
   model; otherwise true iff the store is incompatible, and a compatible
   store sets the flag.
   */
  function Required(m: Migrator, probe: StoreProbe): (r: MigratorAnswer)
    ensures r.required <==> CanCompare(m, probe) && !probe.compatible
    ensures r.migrator.source == m.source
    ensures r.migrator.isConfirmedCompatibility <==> m.isConfirmedCompatibility || (CanCompare(m, probe) && probe.compatible)
  {
    match m.source
    case None => MigratorAnswer(false, m)
    case Some(src) =>
      if src.storeUrl.None? || !probe.reachable then MigratorAnswer(false, m)
      else if src.modelPresent then
        MigratorAnswer(!probe.compatible, if probe.compatible then m.(isConfirmedCompatibility := true) else m)
      else MigratorAnswer(false, m)
  }

  /** The flag after asking `required` once per probe, in order. */
  function AskRepeatedly(m: Migrator, probes: seq<StoreProbe>): Migrator
    decreases |probes|
  {
    if probes == [] then m else AskRepeatedly(Required(m, probes[0]).migrator, probes[1..])
  }

  /** `isConfirmedCompatibility` is only ever set: once true it stays true. */
  lemma {:induction false} ConfirmedCompatibilityIsMonotone(m: Migrator, probes: seq<StoreProbe>)
    requires m.isConfirmedCompatibility
    ensures AskRepeatedly(m, probes).isConfirmedCompatibility
    decreases |probes|
  {
    if probes != [] {
      ConfirmedCompatibilityIsMonotone(Required(m, probes[0]).migrator, probes[1..]);
    }
  }

  /** `Driver.isRequiredMigration()`: a fresh migrator each time, so its confirmation is dropped. */
  function DriverIsRequiredMigration(source: Option<MigratorSource>, probe: StoreProbe): (r: bool)
    ensures r <==> source.Some? && source.value.storeUrl.Some? && source.value.modelPresent
                   && probe.reachable && !probe.compatible
  {
    Required(NewMigrator(source), probe).required
  }

  // ----- CoreDataStack -----

  /** The answer of `isRequiredMigration` with the flag afterwards, or the fatal error it raises. */
  datatype StackVerdict = Verdict(required: bool, confirmed: bool) | FatalError

  /** The base class's `storeURL`: nil. */
  const BaseStoreUrl: Option<string> := None

  /**
   `isRequiredMigration()`: false without a store URL or a reachable store;
   with one, true iff the store is incompatible (a compatible one sets the
   flag); a reachable store without a model is a fatal error.
   */
  function IsRequiredMigration(storeUrl: Option<string>, modelPresent: bool, probe: StoreProbe, confirmed: bool)
    : (r: StackVerdict)
    ensures storeUrl.None? || !probe.reachable ==> r == Verdict(false, confirmed)
    ensures storeUrl.Some? && probe.reachable && !modelPresent ==> r.FatalError?
    ensures storeUrl.Some? && probe.reachable && modelPresent ==>
      r.Verdict? && (r.required <==> !probe.compatible) && (r.confirmed <==> confirmed || probe.compatible)
  {
    match storeUrl
    case None => Verdict(false, confirmed)
    case Some(_) =>
      if !probe.reachable then Verdict(false, confirmed)
      else if modelPresent then Verdict(!probe.compatible, confirmed || probe.compatible)
      else FatalError
  }

  /** The base class never asks for a migration. */
  lemma BaseStackNeverRequiresMigration(modelPresent: bool, probe: StoreProbe, confirmed: bool)
    ensures IsRequiredMigration(BaseStoreUrl, modelPresent, probe, confirmed) == Verdict(false, confirmed)
  {
  }

  /** Things that touch `migrationNotRequiredConfirmed`. */
  datatype StackEvent =
    | InstantiateStack
    | CheckMigration(storeUrl: Option<string>, modelPresent: bool, probe: StoreProbe)

  /** The flag after `events`, stopping where a fatal error ends the process. */
  function RunStack(confirmed: bool, events: seq<StackEvent>): bool
    decreases |events|
  {
    if events == [] then confirmed
    else match events[0]
      case InstantiateStack => RunStack(true, events[1..])
      case CheckMigration(url, model, probe) =>
        match IsRequiredMigration(url, model, probe, confirmed)
        case FatalError => confirmed
        case Verdict(_, c) => RunStack(c, events[1..])
  }

  /** `migrationNotRequiredConfirmed` is monotone: no event sets it back to false. */
  lemma {:induction false} ConfirmedFlagIsMonotone(confirmed: bool, events: seq<StackEvent>)
    requires confirmed
    ensures RunStack(confirmed, events)
    decreases |events|
  {
    if events != [] {
      match events[0]
      case InstantiateStack => ConfirmedFlagIsMonotone(true, events[1..]);
      case CheckMigration(url, model, probe) =>
        match IsRequiredMigration(url, model, probe, confirmed)
        case FatalError =>
        case Verdict(_, c) => ConfirmedFlagIsMonotone(c, events[1..]);
    }
  }

  /** Instantiating the stack confirms, whatever happened before. */
  lemma {:induction false} InstantiateConfirms(confirmed: bool, events: seq<StackEvent>)
    requires InstantiateStack in events
    requires forall i :: 0 <= i < |events| && events[i].CheckMigration? ==>
      events[i].storeUrl.None? || !events[i].probe.reachable || events[i].modelPresent
    ensures RunStack(confirmed, events)
    decreases |events|
  {
    if events[0] == InstantiateStack {
      ConfirmedFlagIsMonotone(true, events[1..]);
    } else {
      assert InstantiateStack in events[1..];
      var e := events[0];
      var c := IsRequiredMigration(e.storeUrl, e.modelPresent, e.probe, confirmed).confirmed;
      InstantiateConfirms(c, events[1..]);
    }
  }
}

=== FILE: operation_queue.dfy ===
/**
 `DriverOperationQueue` and `DriverOperation` (Source/CoreData/Driver.swift):
 a serial queue whose operations each carry a private context, and the
 static slot the driver keeps it in.
 */
module OperationQueues {
  import opened Wrappers
  import opened CoreData

  /** What an operation's block does: the save-capable block, or a plain block with an optional completion. */
  datatype Work = SaveWork | PerformWork(hasCompletion: bool)

  /** An operation: its private context, whether it is executing, the operations it waits for. */
  datatype DriverOperation = DriverOperation(
    id: nat,
    context: ManagedContext,
    executing: bool,
    dependencies: set<nat>,
    work: Work)

  /**
   The operations submitted since the queue was created, in the order they
   were added.  Finished operations are never removed, so the last one is
   the last one submitted, not necessarily one still pending.
   */
  datatype OperationQueue = OperationQueue(operations: seq<DriverOperation>, maxConcurrentOperationCount: nat)

  /** `DriverOperationQueue()`: empty and serial. */
  function NewQueue(): (q: OperationQueue)
    ensures q.operations == [] && q.maxConcurrentOperationCount == 1
  {
    OperationQueue([], 1)
  }

  /** `DriverOperation(parentContext:block:)`: a fresh private context under `parent`, overwrite merge policy. */
  function NewOperation(id: nat, contextId: ContextId, parent: ManagedContext, work: Work): (op: DriverOperation)
    ensures op.context.parent == Some(parent) && op.context.id == contextId
    ensures op.context.concurrency == PrivateQueue && op.context.mergePolicy == OverwriteMergePolicy
    ensures op.context.coordinator.None?
    ensures !op.executing && op.dependencies == {} && op.work == work
  {
    DriverOperation(id, ManagedContext(contextId, PrivateQueue, Some(parent), None, OverwriteMergePolicy), false, {}, work)
  }

  /** The overridden `addOperation`: the new operation first depends on the previously last one. */
  function AddOperation(q: OperationQueue, op: DriverOperation): (r: OperationQueue)
    ensures r.maxConcurrentOperationCount == q.maxConcurrentOperationCount
    ensures |r.operations| == |q.operations| + 1
    ensures r.operations[..|q.operations|] == q.operations
    ensures q.operations == [] ==> r.operations[|q.operations|] == op
    ensures q.operations != [] ==>
      r.operations[|q.operations|] == op.(dependencies := op.dependencies + {q.operations[|q.operations| - 1].id})
  {
    var added :=
      if q.operations == [] then op
      else op.(dependencies := op.dependencies + {q.operations[|q.operations| - 1].id});
    q.(operations := q.operations + [added])
  }

  /** The inherited `addOperations(_:waitUntilFinished:)`, which the queue does not override: no dependency is added. */
  function AddOperationsWaiting(q: OperationQueue, op: DriverOperation): (r: OperationQueue)
    ensures r.maxConcurrentOperationCount == q.maxConcurrentOperationCount
    ensures r.operations == q.operations + [op]
  {
    q.(operations := q.operations + [op])
  }

  /** Every operation after the first waits for the one added just before it. */
  ghost predicate Chained(q: OperationQueue) {
    forall i :: 0 < i < |q.operations| ==> q.operations[i - 1].id in q.operations[i].dependencies
  }

  /** `addOperation` keeps the queue chained, so operations added through it run one after another. */
  lemma AddOperationKeepsChain(q: OperationQueue, op: DriverOperation)
    requires Chained(q)
    ensures Chained(AddOperation(q, op))
  {
    var r := AddOperation(q, op);
    forall i | 0 < i < |r.operations|
      ensures r.operations[i - 1].id in r.operations[i].dependencies
    {
      if i < |q.operations| {
        assert r.operations[i] == q.operations[i] && r.operations[i - 1] == q.operations[i - 1];
      } else {
        assert r.operations[i - 1] == q.operations[i - 1];
      }
    }
  }

  /** The index of the first executing operation, if any. */
  function FirstExecuting(ops: seq<DriverOperation>): (r: Option<nat>)
    ensures r.Some? ==> r.value < |ops| && ops[r.value].executing
    ensures r.Some? ==> forall j :: 0 <= j < r.value ==> !ops[j].executing
    ensures r.None? ==> forall j :: 0 <= j < |ops| ==> !ops[j].executing
    decreases |ops|
  {
    if ops == [] then None
    else if ops[0].executing then Some(0)
    else match FirstExecuting(ops[1..])
      case None => None
      case Some(k) => Some(k + 1)
  }

  /** `currentExecutingOperation`: the first executing operation in queue order, or nil. */
  function CurrentExecutingOperation(q: OperationQueue): (r: Option<DriverOperation>)
    ensures r.None? <==> forall j :: 0 <= j < |q.operations| ==> !q.operations[j].executing
    ensures r.Some? ==> r.value.executing
    ensures r.Some? ==>
      exists i :: 0 <= i < |q.operations| && q.operations[i] == r.value && forall j :: 0 <= j < i ==> !q.operations[j].executing
  {
    match FirstExecuting(q.operations)
    case None => None
    case Some(i) => Some(q.operations[i])
  }

  /** Adding an operation that is not yet executing does not change which one is executing. */
  lemma AddingIdleOperationKeepsCurrent(q: OperationQueue, op: DriverOperation)
    requires !op.executing
    ensures CurrentExecutingOperation(AddOperation(q, op)) == CurrentExecutingOperation(q)
    ensures CurrentExecutingOperation(AddOperationsWaiting(q, op)) == CurrentExecutingOperation(q)
  {
    var ops := q.operations;
    var r1 := AddOperation(q, op).operations;
    var r2 := AddOperationsWaiting(q, op).operations;
    FirstExecutingOfExtension(ops, r1);
    FirstExecutingOfExtension(ops, r2);
  }

  lemma {:induction false} FirstExecutingOfExtension(ops: seq<DriverOperation>, longer: seq<DriverOperation>)
    requires |longer| == |ops| + 1 && longer[..|ops|] == ops && !longer[|ops|].executing
    ensures FirstExecuting(longer) == FirstExecuting(ops)
    decreases |ops|
  {
    if ops != [] {
      assert longer[0] == ops[0];
      if !ops[0].executing {
        assert longer[1..][..|ops[1..]|] == ops[1..];
        FirstExecutingOfExtension(ops[1..], longer[1..]);
      }
    }
  }

  // ----- the static slot -----

  /** `Driver.Static.driverOperationQueue`. */
  datatype DriverStatics = DriverStatics(queue: Option<OperationQueue>)

  datatype QueueAccess = QueueAccess(queue: OperationQueue, statics: DriverStatics)

  /** The `driverOperationQueue` accessor: the stored queue, created on first use. */
  function AccessQueue(s: DriverStatics): (r: QueueAccess)
    ensures r.statics.queue == Some(r.queue)
    ensures s.queue.Some? ==> r.queue == s.queue.value && r.statics == s
    ensures s.queue.None? ==> r.queue == NewQueue()
  {
    match s.queue
    case Some(q) => QueueAccess(q, s)
    case None => QueueAccess(NewQueue(), DriverStatics(Some(NewQueue())))
  }

  /** What `tearDown` leaves: the static slot, and the context it passed to the caller's callback. */
  datatype TearDownOutcome<C> = TearDownOutcome(statics: DriverStatics, callbackArgument: C)

  /**
   `tearDown(tearDownContext:)`: forgets the shared queue, then hands the
   driver's own context to the caller's callback, which is caller code.
   */
  function TearDown<C>(s: DriverStatics, driverContext: C): (r: TearDownOutcome<C>)
    ensures r.statics.queue.None?
    ensures r.callbackArgument == driverContext
  {
    TearDownOutcome(DriverStatics(None), driverContext)
  }

  /** Until `tearDown`, every access returns the same shared queue. */
  lemma AccessQueueIsShared(s: DriverStatics)
    ensures AccessQueue(AccessQueue(s).statics) == AccessQueue(s)
  {
  }

  /** After `tearDown`, the next access starts a fresh, empty queue. */
  lemma TearDownGivesFreshQueue<C>(s: DriverStatics, driverContext: C)
    ensures AccessQueue(TearDown(s, driverContext).statics).queue == NewQueue()
    ensures AccessQueue(TearDown(s, driverContext).statics).queue.operations == []
  {
  }
}

=== FILE: store_name.dfy ===
/**
 Derivation of the SQLite store file name (`defaultStoreName`), which the
 library and its example repeat in four places, and the lazy cell that
 caches it.
 */
module StoreNames {
  import opened Wrappers

  /** The suffix every derived store name ends in. */
  const SqliteSuffix: string := "sqlite"

  /** The base name used when neither an explicit name nor a bundle name is known. */
  const FallbackStoreName: string := "DefaultStore.sqlite"

  predicate HasSuffix(s: string, suffix: string) {
    |suffix| <= |s| && s[|s| - |suffix|..] == suffix
  }

  /**
   The inputs on which `stringByAppendingPathExtension` is modelled as plain
   concatenation: a non-empty name that does not end in a path separator.
   */
  predicate CanAppendExtension(name: string) {
    |name| > 0 && name[|name| - 1] != '/'
  }

  /** `stringByAppendingPathExtension(ext)` on a name it accepts. */
  function AppendPathExtension(name: string, ext: string): string
    requires CanAppendExtension(name)
  {
    name + "." + ext
  }

  /** A base name the suffix rule can be applied to. */
  predicate Normalizable(name: string) {
    HasSuffix(name, SqliteSuffix) || CanAppendExtension(name)
  }

  /**
   The suffix rule: a name that already ends in `sqlite` (with or without a
   dot before it) is kept, any other gets the `.sqlite` extension.
   */
  function WithSqliteSuffix(name: string): (r: string)
    requires Normalizable(name)
    ensures HasSuffix(r, SqliteSuffix)
    ensures r == name <==> HasSuffix(name, SqliteSuffix)
    ensures r == name || r == name + ".sqlite"
  {
    if HasSuffix(name, SqliteSuffix) then name else AppendPathExtension(name, SqliteSuffix)
  }

  /** The suffix rule is idempotent. */
  lemma WithSqliteSuffixIdempotent(name: string)
    requires Normalizable(name)
    ensures Normalizable(WithSqliteSuffix(name))
    ensures WithSqliteSuffix(WithSqliteSuffix(name)) == WithSqliteSuffix(name)
  {
  }

  /** Removing the appended extension gives the name back: the rule only ever adds. */
  lemma WithSqliteSuffixKeepsName(name: string)
    requires Normalizable(name)
    ensures WithSqliteSuffix(name)[..|name|] == name
    ensures !HasSuffix(name, SqliteSuffix) ==> WithSqliteSuffix(name)[|name|..] == ".sqlite"
  {
  }

  /** An explicit store name counts only when it is present and non-empty. */
  predicate IsExplicit(storeName: Option<string>) {
    storeName.Some? && storeName.value != ""
  }

  /**
   The base name before the suffix rule: the explicit store name, else the
   bundle name, else `DefaultStore.sqlite`.
   */
  function SelectBaseName(storeName: Option<string>, bundleName: Option<string>): (r: string)
    ensures IsExplicit(storeName) ==> r == storeName.value
    ensures !IsExplicit(storeName) && bundleName.Some? ==> r == bundleName.value
    ensures !IsExplicit(storeName) && bundleName.None? ==> r == FallbackStoreName
  {
    if IsExplicit(storeName) then storeName.value
    else bundleName.GetOr(FallbackStoreName)
  }

  /** The inputs for which the derivation does not reach Foundation's unmodelled path cases. */
  predicate Derivable(storeName: Option<string>, bundleName: Option<string>) {
    Normalizable(SelectBaseName(storeName, bundleName))
  }

  /** `defaultStoreName` of the library's driver and of `Manager`. */
  function DefaultStoreName(storeName: Option<string>, bundleName: Option<string>): (r: string)
    requires Derivable(storeName, bundleName)
    ensures HasSuffix(r, SqliteSuffix)
    ensures IsExplicit(storeName) ==> r == WithSqliteSuffix(storeName.value)
    ensures !IsExplicit(storeName) && bundleName.Some? ==> r == WithSqliteSuffix(bundleName.value)
    ensures !IsExplicit(storeName) && bundleName.None? ==> r == FallbackStoreName
  {
    WithSqliteSuffix(SelectBaseName(storeName, bundleName))
  }

  /** `defaultStoreName` of `ARContext` and of the example's stack: no explicit name at all. */
  function BundleStoreName(bundleName: Option<string>): (r: string)
    requires bundleName.Some? ==> Normalizable(bundleName.value)
    ensures HasSuffix(r, SqliteSuffix)
    ensures bundleName.None? ==> r == FallbackStoreName
    ensures bundleName.Some? ==> r == bundleName.value || r == bundleName.value + ".sqlite"
    ensures bundleName.Some? && HasSuffix(bundleName.value, SqliteSuffix) ==> r == bundleName.value
  {
    WithSqliteSuffix(bundleName.GetOr(FallbackStoreName))
  }

  /** The bundle-only derivation is the general one with the explicit name unset or empty. */
  lemma BundleStoreNameIsUnsetDefault(bundleName: Option<string>)
    requires bundleName.Some? ==> Normalizable(bundleName.value)
    ensures Derivable(None, bundleName) && Derivable(Some(""), bundleName)
    ensures BundleStoreName(bundleName) == DefaultStoreName(None, bundleName)
    ensures BundleStoreName(bundleName) == DefaultStoreName(Some(""), bundleName)
  {
  }

  /** The derived name is a fixed point of the suffix rule. */
  lemma DefaultStoreNameIsNormal(storeName: Option<string>, bundleName: Option<string>)
    requires Derivable(storeName, bundleName)
    ensures Normalizable(DefaultStoreName(storeName, bundleName))
    ensures WithSqliteSuffix(DefaultStoreName(storeName, bundleName)) == DefaultStoreName(storeName, bundleName)
  {
  }

  // ----- the lazy cell -----

  /** The driver's `storeName` setting and its `lazy var defaultStoreName`. */
  datatype NameState = NameState(storeName: Option<string>, cached: Lazy<string>)

  /** A driver that has neither been set up nor read. */
  const InitialNameState: NameState := NameState(None, Unset)

  /** `setup(storeName:)`: records the name; the cached value, if any, is untouched. */
  function Setup(s: NameState, name: string): (r: NameState)
    ensures r.storeName == Some(name) && r.cached == s.cached
  {
    s.(storeName := Some(name))
  }

  datatype NameRead = NameRead(name: string, state: NameState)

  /** A read of the lazy value can be answered. */
  predicate Readable(s: NameState, bundleName: Option<string>) {
    s.cached.Cached? || Derivable(s.storeName, bundleName)
  }

  /** Reading `defaultStoreName`: the first read derives and caches, later reads return the cache. */
  function ReadStoreName(s: NameState, bundleName: Option<string>): (r: NameRead)
    requires Readable(s, bundleName)
    ensures s.cached.Cached? ==> r.name == s.cached.value && r.state == s
    ensures s.cached.Unset? ==> r.name == DefaultStoreName(s.storeName, bundleName)
    ensures r.state.cached == Cached(r.name) && r.state.storeName == s.storeName
  {
    match s.cached
    case Cached(name) => NameRead(name, s)
    case Unset =>
      var name := DefaultStoreName(s.storeName, bundleName);
      NameRead(name, s.(cached := Cached(name)))
  }

  /** `setup` before the first read decides the name. */
  lemma SetupBeforeFirstReadDecides(s: NameState, name: string, bundleName: Option<string>)
    requires s.cached.Unset?
    requires Derivable(Some(name), bundleName)
    ensures ReadStoreName(Setup(s, name), bundleName).name == DefaultStoreName(Some(name), bundleName)
    ensures name != "" ==> ReadStoreName(Setup(s, name), bundleName).name == WithSqliteSuffix(name)
  {
  }

  /** An operation on the driver's naming state. */
  datatype NameEvent = SetupEvent(name: string) | ReadEvent(bundleName: Option<string>)

  /** Whether every read in `events` can be answered, starting from `s`. */
  predicate Runnable(s: NameState, events: seq<NameEvent>)
    decreases |events|
  {
    if events == [] then true
    else match events[0]
      case SetupEvent(n) => Runnable(Setup(s, n), events[1..])
      case ReadEvent(b) => Readable(s, b) && Runnable(ReadStoreName(s, b).state, events[1..])
  }

  /** The state after running `events`. */
  function Run(s: NameState, events: seq<NameEvent>): NameState
    requires Runnable(s, events)
    decreases |events|
  {
    if events == [] then s
    else match events[0]
      case SetupEvent(n) => Run(Setup(s, n), events[1..])
      case ReadEvent(b) => Run(ReadStoreName(s, b).state, events[1..])
  }

  /**
   Once read, the name is fixed: whatever `setup` calls and reads follow,
   the cache still holds the first value, so every later read returns it.
   */
  lemma {:induction false} NameFixedAfterFirstRead(s: NameState, events: seq<NameEvent>)
    requires s.cached.Cached?
    requires Runnable(s, events)
    ensures Run(s, events).cached == s.cached
    decreases |events|
  {
    if events != [] {
      match events[0]
      case SetupEvent(n) =>
        NameFixedAfterFirstRead(Setup(s, n), events[1..]);
      case ReadEvent(b) =>
        NameFixedAfterFirstRead(ReadStoreName(s, b).state, events[1..]);
    }
  }

  /** A `setup` after the first read changes nothing a later read can see. */
  lemma SetupAfterReadIgnored(s: NameState, bundleName: Option<string>, name: string, laterBundle: Option<string>)
    requires Readable(s, bundleName)
    ensures Readable(Setup(ReadStoreName(s, bundleName).state, name), laterBundle)
    ensures ReadStoreName(Setup(ReadStoreName(s, bundleName).state, name), laterBundle).name
         == ReadStoreName(s, bundleName).name
  {
  }
}

=== FILE: wrappers.dfy ===
/** Small value wrappers shared by every module: Swift optionals and Swift `lazy var` cells. */
module Wrappers {

  /** A Swift optional: `nil` is `None`. */
  datatype Option<+T> = None | Some(value: T) {

    /** The wrapped value, or `default` when nil (Swift's `??`). */
    function GetOr(default: T): T {
      match this
      case Some(v) => v
      case None => default
    }
  }

  /** The storage behind a Swift `lazy var`: unset until the first read, then fixed. */
  datatype Lazy<+T> = Unset | Cached(value: T)

  /** Swift's `a != nil ? a! : b` for optionals. */
  function OrElse<T>(first: Option<T>, second: Option<T>): (r: Option<T>)
    ensures first.Some? ==> r == first
    ensures first.None? ==> r == second
  {
    if first.Some? then first else second
  }
}
